=== FILE: README.md ===
# GameRank, modelled in Dafny

GameRank is a Django site that lists video games, lets visitors rate and comment on them, lets
users like or dislike comments and follow games, and guards the whole site with a shared
"global" password. This project models the parts of the application code that decide what is
stored and what is answered:

- **Rating ledger** (`game_detail`, game_views.py). This covers validating the rating and comment
  form and finding the author's earlier rating. It also covers editing that rating, or creating
  a rating comment, and keeping the game's running `average_rating` and `vote_count`.
  - `average_rating` is a one-decimal `Decimal`, kept as an integer number of tenths.
  - `round(x, 1)` on a `Decimal` is modelled as exact half-to-even rounding of a rational number.
- **Likes** (`like_comment`). This is the like/dislike toggle on a comment and its effect on
  the comment's like and dislike counts.
- **Follows** (`follow_game`, `unfollow_game`, `Game.is_followed_by_user`).
- **Catalogue ingestion** (utils.py: `load_games`, `load_xml`, `load_json`, `is_valid_date`).
  - Each feed record is prepared, checked against the existing ids and titles, and inserted if
    both are free.
  - Any exception ends the batch and keeps what was already inserted.
  - `datetime.strptime(s, '%Y-%m-%d')` and Django's `parse_date` are modelled over ASCII digits.
- **Models helpers** (models.py): `Like.is_valid_vote`, `Like.__str__`'s status word,
  `likes_count`, `dislikes_count` and `is_followed_by_user`.
- **Password gate** (`PasswordMiddleware.__call__`) and **`global_login_view`**, which seeds
  the default password and hands out the `global_pass` cookie.
- **Account views** (user_views.py):
  - the statistics of `user_profile`
  - the form handling of `user_settings`
  - the redirect of `set_language`

The database is one immutable `Store`:

- games are a map from id to row;
- comments are a sequence whose index is the primary key;
- likes are a map keyed by (comment, user);
- follows are a set of (user, game) pairs.

Every view is a pure function from the store and the request to the new store and the reply.
The HTTP status or redirect is part of the reply. An unhandled exception is a `ServerError`-like
outcome. It leaves the store as it was, except in `user_settings`, where the rename is saved
before the missing profile raises.

Modules and files: `Common` (common.dfy), `Text` (text.dfy: Python `strip`, `startswith`,
`replace`), `Dates` (dates.dfy), `Models` (models.dfy), `Ledger` (ledger.dfy), `Reactions`
(reactions.dfy), `Follows` (follows.dfy), `Ingest` (ingest.dfy), `Access` (access.dfy) and
`Accounts` (accounts.dfy).

### Where the code does not do what it is meant to do

- **The average drifts.** `average_rating` is meant to hold the mean of a game's
  ratings, rounded to one decimal. The view does not compute that. It rebuilds the total as
  `average_rating * vote_count` from the already rounded average. Rounding errors therefore
  accumulate.
  - `Ledger.RatingFromExactAverage` proves that one step from an exact average gives the correctly
    rounded mean.
  - `Ledger.AverageDrifts` exhibits a sequence where it does not. Three users rate 0, then one
    of them moves to 1, 2, 3 and back to 0. Every rating is 0 again, but the stored average is
    -0.1.
- **Anonymous ratings.** The lookup for an existing rating uses `str(request.user)`, which is
  `AnonymousUser` for a visitor who is not signed in. A new comment is saved under
  `Anonymous`. So anonymous ratings never edit each other (`Ledger.AnonymousRatingsAccumulate`).
  Instead they edit the rating of a registered user whose username is `AnonymousUser`
  (`Ledger.AnonymousEditsAnonymousUserRating`). The one-vote-per-author rule holds only for
  signed-in users (`Ledger.MemberKeepsOneRating`).
- **Date checking.** A date is meant to be exactly `YYYY-MM-DD`. The code
  uses `strptime`, which also accepts unpadded fields (`2014-3-5`) and a space-padded day
  (`2014-03- 5`). Django's `parse_date` refuses the latter, so such a record passes the check
  and then makes the insert raise, which ends the batch (`Dates.DateExamples`,
  `Dates.StoredDate`).
- **A re-rating on a game with no votes.** A game whose `vote_count` is 0, but which still has
  a rating comment by the author, cannot be re-rated. The edit path divides by the unchanged
  count, and a `Decimal` division by zero raises (`Ledger.ReRatingWithoutVotesFails`).

## Model

| member | source | states |
|---|---|---|
| `Models.LikeStatus` | GameRank/games/models.py:102-109 | the status word is "Like" exactly when the like flag is set, and "No vote" exactly when neither flag is set |
| `Models.StatusIdentifiesValidVote` | GameRank/games/models.py:98-109 | for rows that pass `is_valid_vote`, two rows show the same status word if and only if they are the same row |
| `Models.CountsBoundedByRows` | GameRank/games/models.py:67-74 | when every like row is a valid vote, a comment's likes plus dislikes never exceed its number of like rows |
| `Dates.FormatRoundTrip` | GameRank/games/utils.py:157-164 | every calendar date written as YYYY-MM-DD passes `is_valid_date`, and both strptime and `parse_date` read it back as the same date |
| `Dates.StoredDate` | GameRank/games/utils.py:79 | for a string `is_valid_date` accepted, `parse_date` gives no date exactly when the string holds a space; otherwise it gives the calendar date strptime read |
| `Dates.ChooseDateText` | GameRank/games/utils.py:62-65 | the date text kept is always accepted by `is_valid_date`: the feed's own text when it passes, "2025-01-01" otherwise |
| `Dates.DateExamples` | GameRank/games/utils.py:60-65 | the feed dates 2014-02-30 and 2014-03-00 are rejected, leap days follow the Gregorian rule, unpadded fields are accepted, and a space-padded day is accepted by strptime but not by `parse_date` |
| `Text.StripEmptyIffAllSpace` | GameRank/games/game_views.py:241 | `text.strip()` is empty if and only if every character of the text is whitespace |
| `Ledger.RoundHalfEvenNearest` | GameRank/games/game_views.py:262 | the rounded value is an integer nearest to num/den, and an exact tie goes to the even neighbour |
| `Ledger.RoundHalfEvenUnique` | GameRank/games/game_views.py:262 | any integer with those two properties is the rounded value, so the rounding depends only on the exact quotient |
| `Ledger.FindRating` | GameRank/games/game_views.py:249-251 | finds the earliest comment with a rating of at least 0 on the game by the given author; it finds nothing if and only if no comment qualifies |
| `Ledger.RecomputeAverage` | GameRank/games/game_views.py:255-262 | a zero vote count raises, and only a zero count does; a count of one gives the submitted rating itself |
| `Ledger.RecomputeAverageRounds` | GameRank/games/game_views.py:261-262 | for any other count the new average is the total divided by the count, rounded half-to-even to tenths |
| `Ledger.CleanForm` | GameRank/games/forms.py:10-27 | the form is valid if and only if the rating is blank or an integer in 0..5 and the stripped text has no NUL; the cleaned text is the stripped text and the cleaned rating is the posted one |
| `Ledger.EditRating` | GameRank/games/game_views.py:253-268 | on success only the author's rating comment changes (new rating and text) and the vote count stays; a zero vote count raises and saves nothing; the game's columns other than its average are untouched, as are other games, likes and follows |
| `Ledger.AddRating` | GameRank/games/game_views.py:270-293 | on success exactly one rating comment is appended under the stored author and the vote count grows by one; a vote count of -1 raises and saves nothing; besides that comment only the game's average and vote count change |
| `Ledger.Submit` | GameRank/games/game_views.py:237-307 | 401 exactly when there is no rating and the text is blank, with nothing saved; a text-only comment leaves the game row alone; a rating changes the vote count by exactly the number of comments added; only the posted game's average and vote count, and the comments, can change |
| `Ledger.SubmitRating` | GameRank/games/game_views.py:247-293 | a rating either rewrites the author's rating comment found by the lookup or appends one under the stored author, the vote count growing by the number of comments added; only the posted game's average and vote count change |
| `Ledger.GameDetail` | GameRank/games/game_views.py:204-311 | 404 exactly for an unknown game; any non-200 outcome changes nothing; a GET or a POST without `rate_comment` is 200 and changes nothing; a `rate_comment` POST is 401 when the form does not validate and is otherwise handled as the submission of its cleaned rating and text; only the posted game's row can change |
| `Ledger.RefusedExactly` | GameRank/games/game_views.py:233-243 | a posted rating form is answered 401 if and only if it does not validate or has neither a rating nor non-blank text |
| `Ledger.EmptySubmissionRefused` | GameRank/games/game_views.py:233-243 | a rating form with a blank rating and blank text, or one that does not validate, is answered 401 and saves nothing |
| `Ledger.FirstRating` | GameRank/games/game_views.py:270-293 | a first rating by an author adds one vote and one comment carrying rating, text and author; the average is the rating itself for the first vote and the rounded rebuilt total otherwise |
| `Ledger.ReRating` | GameRank/games/game_views.py:249-268 | a second rating by the same author rewrites the earlier rating comment in place, adds no comment, keeps the vote count, and recomputes the average from the swapped total |
| `Ledger.ReRatingWithoutVotesFails` | GameRank/games/game_views.py:255-262 | re-rating on a game whose vote count is 0 raises and leaves the store unchanged |
| `Ledger.TextOnly` | GameRank/games/game_views.py:298-307 | a non-blank comment without a rating leaves the game's average and vote count unchanged and appends one comment that carries no rating |
| `Ledger.MemberKeepsOneRating` | GameRank/games/game_views.py:247-293 | submissions by a signed-in user keep at most one rating comment per author and game |
| `Ledger.SubmitKeepsVoteCount` | GameRank/games/game_views.py:247-296 | any submission keeps `vote_count` equal to the number of the game's rating comments |
| `Ledger.RatingFromExactAverage` | GameRank/games/game_views.py:255-283 | when the stored average is the exact mean of the ratings, one more rating or re-rating leaves it equal to the correctly rounded mean |
| `Ledger.RatingWalkthrough` | GameRank/games/game_views.py:247-296 | ratings 4, then 3 by a second user, then 0 by the first, give averages 4.0, 3.5 and 1.5 with one, two and two votes |
| `Ledger.AverageDrifts` | GameRank/games/game_views.py:255-262 | three zero ratings, one of which moves to 1, 2, 3 and back to 0, leave the same comments but a stored average of -0.1, which is not the rounded mean |
| `Ledger.AnonymousRatingsAccumulate` | GameRank/games/game_views.py:249-291 | two anonymous ratings in a row add two votes and two rating comments with the same author, breaking the one-vote rule |
| `Ledger.AnonymousEditsAnonymousUserRating` | GameRank/games/game_views.py:249-268 | an anonymous rating edits the rating comment of a user named "AnonymousUser" instead of adding a vote |
| `Reactions.Toggle` | GameRank/games/game_views.py:444-466 | the result is always a valid vote; "like" flips the like flag and clears the dislike; any other kind flips the dislike flag and clears the like |
| `Reactions.ToggleTwice` | GameRank/games/game_views.py:448-466 | the same kind twice restores that kind's flag and leaves the other cleared; from a new row it restores the new row |
| `Reactions.ToggleThrice` | GameRank/games/game_views.py:448-466 | three toggles of one kind equal one |
| `Reactions.LikeComment` | GameRank/games/game_views.py:425-469 | an anonymous visitor is redirected and an unknown comment is 404, both with no change; otherwise the row is fetched or created (even on GET), toggled on POST, and nothing but that row changes |
| `Reactions.LikeCommentKeepsValidVotes` | GameRank/games/game_views.py:444-469 | if every like row is a valid vote before, every row is one after |
| `Reactions.ViewKeepsCounts` | GameRank/games/game_views.py:439-442 | a GET changes no comment's like or dislike count |
| `Reactions.LikeMovesCounts` | GameRank/games/game_views.py:448-456 | a "like" moves the comment's like count by exactly one (up if not liked before, down if liked) and takes back the user's dislike if there was one |
| `Reactions.DislikeMovesCounts` | GameRank/games/game_views.py:458-466 | any other kind moves the dislike count by exactly one and takes back the user's like if there was one |
| `Reactions.OtherCommentsKeepCounts` | GameRank/games/game_views.py:439-469 | whatever a user does on one comment, every other comment's counts stay the same |
| `Follows.FollowGame` | GameRank/games/game_views.py:162-180 | an anonymous visitor is redirected and an unknown game is 404, both with no change; otherwise the (user, game) pair is added to the follows and nothing else changes |
| `Follows.UnfollowGame` | GameRank/games/game_views.py:182-200 | the same checks; otherwise the pair is removed (whether or not it was there) and nothing else changes |
| `Follows.FollowIdempotent` | GameRank/games/game_views.py:174 | following twice is the same as following once |
| `Follows.UnfollowIdempotent` | GameRank/games/game_views.py:194 | unfollowing twice is the same as unfollowing once |
| `Follows.FollowStatus` | GameRank/games/models.py:39-44 | after a follow the user follows the game and after an unfollow they do not; every other (visitor, game) status is unchanged |
| `Follows.FollowUnfollowRoundTrip` | GameRank/games/game_views.py:174-194 | follow then unfollow removes the pair; unfollow then follow of a pair that existed restores the store |
| `Ingest.Decide` | GameRank/games/utils.py:91-95 | a record is inserted if and only if it is well formed, its id and title are both free, and its row can be written; it is skipped if and only if its id or title already exists |
| `Ingest.Ingest` | GameRank/games/utils.py:57-99 | the catalogue only grows and keeps existing games unchanged; an abort names a record of the batch |
| `Ingest.CompletedSkipsAll` | GameRank/games/utils.py:57-99 | after a batch that completed, every one of its records would be skipped: each record's id or title is in the catalogue, so nothing insertable was left out |
| `Ingest.PrefixCompleted` | GameRank/games/utils.py:57-99 | the records before the one that raised are all processed without raising |
| `Ingest.InsertedStays` | GameRank/games/utils.py:88-95 | a record that is insertable when its turn comes, before any exception, ends up in the catalogue under its id with its row |
| `Ingest.NewKeysFromRecords` | GameRank/games/utils.py:57-95 | every game a batch adds is the row of one of its well-formed records, stored under that record's id |
| `Ingest.AbortedAt` | GameRank/games/utils.py:98-99 | a batch that raised at record k left what its first k records left, and record k raises against that catalogue |
| `Ingest.AbortStopsBatch` | GameRank/games/utils.py:152-153 | records after the one that raised are never processed |
| `Ingest.IngestConcat` | GameRank/games/utils.py:57-95 | when the first part of a batch completes, the rest runs on the catalogue the first part left |
| `Ingest.SkipMonotone` | GameRank/games/utils.py:130-131 | a record skipped against a catalogue is skipped against any larger one |
| `Ingest.IngestIdempotent` | GameRank/games/utils.py:88-95 | loading the same batch again changes nothing and ends the same way, even after an abort |
| `Ingest.CompletedIsSettled` | GameRank/games/utils.py:128-131 | a batch that completed, rerun on any catalogue that kept its games, inserts nothing |
| `Ingest.IngestKeepsDistinctTitles` | GameRank/games/utils.py:91-92 | titles that were pairwise distinct stay pairwise distinct |
| `Ingest.NewGamesUnrated` | GameRank/games/utils.py:81-82 | every game a batch adds has average 0 and vote count 0 |
| `Ingest.NatToString` | GameRank/games/utils.py:119 | `str(n)` is a non-empty string of digits whose decimal value is n, with no leading zero |
| `Ingest.IntToString` | GameRank/games/utils.py:119 | `str(i)` starts with '-' exactly for negative i; the rest is a string of digits whose decimal value is the magnitude of i, with no leading zero except for 0 itself |
| `Ingest.IntToStringInjective` | GameRank/games/utils.py:119 | distinct integer ids give distinct key strings |
| `Ingest.Render` | GameRank/games/utils.py:119-149 | a string value is stored as itself, an integer value as its decimal rendering, null as "None" and a boolean as "True" or "False" (so a null id becomes "LIS2-None") |
| `Ingest.ProfileUrlValue` | GameRank/games/utils.py:146 | the profile URL is `freetogame_profile_url` when it is truthy and `profile_url` otherwise |
| `Ingest.KeptDate` | GameRank/games/utils.py:62-65 | a release date that passes is stored as the date strptime read unless it holds a space, in which case `parse_date` gives no date; anything else is stored as 2025-01-01 |
| `Ingest.PrepareXml` | GameRank/games/utils.py:60-86 | a `<game>` missing a child element or an id text raises; the id is the prefix plus the id text; a writable row carries every child's text, an unrated state and the kept release date; the row can be written exactly when every child has text and the kept date text holds no space |
| `Ingest.PrepareJson` | GameRank/games/utils.py:117-149 | a non-object, a missing id or a boolean or integer release date raises; the id is the prefix plus `str(id)`; a writable row carries each column's rendered value, the profile URL fallback and the kept date; the row can be written exactly when the title is a non-null value, every column is non-null, the profile URL fallback is non-null and the kept date text holds no space |
| `Ingest.LoadGames` | GameRank/games/utils.py:22-38 | a failed download reports an error and changes nothing; a fetched feed of the named format that parses runs the insertion loop over all its prepared records, and one that does not parse changes nothing; every game added carries the prefix and is unrated; existing games are never changed |
| `Ingest.LoadGamesIdempotent` | GameRank/games/utils.py:22-38 | calling `load_games` again with the same download changes nothing and reports the same outcome |
| `Ingest.LoadGamesSettled` | GameRank/games/utils.py:22-38 | a load that did not abort, rerun on any catalogue that kept its games, inserts nothing |
| `Ingest.RefreshCatalog` | GameRank/games/game_views.py:17-20 | the three feeds are loaded in order, each on what the previous left, and what each adds stays in the result; only unrated games whose ids carry LIS1-, LIS2- or LIS3- are added |
| `Ingest.RefreshSettled` | GameRank/games/game_views.py:17-20 | when none of the three loads aborted, a second refresh with the same downloads leaves the catalogue as it is |
| `Access.Gate` | GameRank/games/middleware.py:18-52 | allowed paths always pass; a valid non-empty cookie passes; a `Basic ` header whose remainder, with every `Basic ` removed and whitespace stripped, is valid passes, and otherwise nothing does; a redirect carries the error message exactly when a non-empty cookie was sent |
| `Access.GateMonotone` | GameRank/games/middleware.py:29-45 | adding valid passwords never turns away a request that passed |
| `Access.BasicHeaderPasses` | GameRank/games/middleware.py:38-45 | `Basic <p>` passes for every valid password p without surrounding whitespace that does not contain `Basic ` |
| `Access.CleanPassword` | GameRank/games/forms.py:46-49 | the password field is valid if and only if it is not blank and the stripped value has no NUL; the cleaned value is the stripped one |
| `Access.GlobalLogin` | GameRank/games/user_views.py:20-49 | the default password is seeded exactly when there is none; a POST redirects to the main page with the stripped password as cookie if and only if that password is valid; otherwise it answers 401 |
| `Access.LoginThenPass` | GameRank/games/user_views.py:36-40 | the cookie a successful login sets opens every path for the gate |
| `Access.FreshSiteAcceptsDefault` | GameRank/games/user_views.py:23-24 | on an empty password table "xx34d23" is seeded and accepted |
| `Access.FreshSiteAcceptsPaddedDefault` | GameRank/games/user_views.py:28-40 | the default password padded with whitespace is accepted, and the cookie holds it unpadded |
| `Access.DefaultNotSeededOnceConfigured` | GameRank/games/user_views.py:23-24 | once another password exists, the default is neither seeded nor accepted |
| `Accounts.UserProfile` | GameRank/games/user_views.py:89-121 | anonymous visitors are redirected; otherwise the vote count is the number of the user's rated comments, and the average is integer 0 with no votes, 0.0 when the ratings sum to 0, and otherwise total over count |
| `Accounts.VotesAreRatings` | GameRank/games/user_views.py:97-106 | every vote is the rating of one of the user's comments, and every rating the user gave is among the votes |
| `Accounts.VotesAppend` | GameRank/games/user_views.py:97-109 | a comment by the user with a rating adds one vote and its rating to the total; any other comment changes neither |
| `Accounts.TotalBounded` | GameRank/games/user_views.py:108-111 | with ratings in 0..5 the total lies between 0 and 5 times the count, so the average is in 0..5 |
| `Accounts.ProfileExample` | GameRank/games/user_views.py:97-113 | ratings 2, 3, 4 and 5 give four votes and an average of 3.5; text-only comments and other users' ratings do not count |
| `Accounts.CleanSettings` | GameRank/games/forms.py:31-42 | the settings form is valid if and only if the stripped alias is at most 100 characters without NUL and both the font type and the size are among the offered choices |
| `Accounts.UserSettings` | GameRank/games/user_views.py:126-170 | anonymous visitors are redirected; only the requesting account can change; success requires a valid form, an existing profile and an alias no other account holds; it stores the fonts and renames only for a non-blank alias; a signed-in visitor is never redirected; a taken alias answers 500 with nothing saved, and a missing profile answers 500 after the rename was saved |
| `Accounts.SaveSucceeds` | GameRank/games/user_views.py:134-158 | a valid form for an account with a profile and a free alias stores exactly the saved account: new fonts, and the alias as username when it is not blank |
| `Accounts.RenameKeepsDistinct` | GameRank/games/user_views.py:146-148 | giving one account a name no other account holds keeps usernames unique |
| `Accounts.SettingsKeepUsernamesDistinct` | GameRank/games/user_views.py:146-148 | every settings request keeps usernames pairwise distinct |
| `Accounts.SettingsIdempotent` | GameRank/games/user_views.py:134-158 | when a submission succeeds (valid form, existing profile, free alias), submitting the same settings again succeeds and changes nothing |
| `Accounts.ResolveUrl` | GameRank/games/user_views.py:212 | `resolve_url` fails if and only if the target is not a relative `./` or `../` path, not a URL name, and contains neither '/' nor '.' |
| `Accounts.UrlScheme` | GameRank/games/user_views.py:212 | the scheme `HttpResponseRedirect` checks is empty unless the location starts with an ASCII letter; a non-empty scheme is the lower-cased text before the first ':', made of scheme characters only |
| `Accounts.SchemeOfPrefix` | GameRank/games/user_views.py:212 | text that ends at the first ':', starts with a letter and holds only scheme characters is read, lower-cased, as the scheme |
| `Accounts.SetLanguage` | GameRank/games/user_views.py:204-217 | a language other than es or en is 404; otherwise the reply redirects to the resolved path of the referer (or of "/") and sets the language cookie; it is 500 exactly when `resolve_url` fails, and 400 exactly when the path resolves to a location whose scheme is neither empty nor http, https or ftp |
| `Accounts.LanguageReturnsToReferer` | GameRank/games/user_views.py:206-212 | for an absolute path that names no route, the visitor is sent back to exactly the referer's path |
| `Accounts.DisallowedSchemeFails` | GameRank/games/user_views.py:207-212 | a referer whose path is "mailto:a@b.c" (such as "x:mailto:a@b.c") makes the redirect raise `DisallowedRedirect`, answered 400 |
| `Accounts.EmptyRefererPathFails` | GameRank/games/user_views.py:207-212 | a referer with an empty path makes the redirect raise `DisallowedRedirect`, answered 400 |

## Left out

- Network access: `urllib.request.urlopen` is a parameter (`Download`), and its failure is one
  case of it.
- XML and JSON parsing (`ET.fromstring`, `json.loads`) are taken as parameters: the parsed
  elements or items, or `None` when parsing raises.
- JSON values that are floats, arrays or objects inside a game record are not modelled. Only
  null, booleans, integers and strings are.
- `urlparse(...).path` in `set_language` is a function parameter. Django's URL table is a map
  of the URL names that reverse without arguments.
- Accounts.SetLanguage: the Location header holds the target after `iri_to_uri`, which
  percent-encodes spaces and non-ASCII characters. The model's `location` is the target before
  that encoding, so for such paths it is not the header's exact text.
- Accounts.UrlScheme: follows the scheme rule of `urllib.parse.urlsplit` as of Python 3.9. The
  removal of tab and newline characters and of leading control characters and spaces that
  `urlsplit` applies first is not modelled. Neither is the URL length limit that some Django
  releases add to `HttpResponseRedirect`.
- Likes and follows are keyed by username. In the source they hold the user's foreign key, so
  they stay with the account when `user_settings` renames it; in the model a rename leaves them
  under the old name. Comments are not affected: `Comment.user` is a character field that holds
  the author's name in the source too.
- Translation (`gettext`, `translation.activate`): the anonymous author label is kept as the
  untranslated "Anonymous".
- Ledger.GameDetail: a request with an `HX-Request` header is answered with the comments section
  and status 200 whatever happened, even for a refused form. The statuses the model gives are
  those of a plain request.
- Messages, templates, HTMX partials, pagination and the success text are left out. Replies are
  reduced to status, redirect target and cookie.
- The listing views (`main`'s filtering, `rated_games`, `followed_games`) and the JSON and XML
  exports (`game_json`, `game_xml`) are left out. They only read the store. `main`'s three
  `load_games` calls are modelled (`Ingest.RefreshCatalog`).
- `login_view`, `register` and `logout_view` are left out: they are Django's authentication.
  The profile row `login_view` creates is an `Option<Profile>` of the account.
- Timestamps (`auto_now`, `auto_now_add`) are not modelled. Neither are cookie encoding or the
  base64 form of HTTP Basic authentication, which the gate does not decode.
- Concurrency is not modelled; each view runs alone and atomically. The non-atomic saves matter
  only in `user_settings`, and the partial update (username saved, profile missing) is modelled
  there.
- Unicode decimal digits, which `\d` in strptime and `parse_date` also accepts, are not
  modelled. Only ASCII digits are.
- Ledger.RecomputeAverage: the `Decimal` context's 28-digit precision and the column's
  `max_digits=2` are not modelled; averages are exact rationals rounded to tenths.
- Accounts.UserProfile: the average is the exact rational total/count, not a binary float.
- Accounts.UserSettings: the column length limits of `username` and the `Profile` fields are
  not enforced, as SQLite does not enforce them.
- Ingest.PrepareJson: a title given as a non-string value is compared and stored through its
  `str()` rendering, as Django's character field does. The rendering of floats is left out
  with the float values themselves.

=== FILE: access.dfy ===
/** The global-password gate: `PasswordMiddleware.__call__` (middleware.py), which lets a request
    through or redirects it to the global login, and `global_login_view` (user_views.py), which
    hands out the `global_pass` cookie the gate accepts. */
module Access {
  import opened Common
  import opened Text

  /** Paths that never need the global password. */
  const AllowedPaths: seq<string> := ["/", "/static/", "/favicon.ico", "/global_login/"]

  /** The password seeded when no valid password exists yet. */
  const DefaultPassword: string := "xx34d23"

  const BasicPrefix: string := "Basic "

  /** What the gate reads of a request: the path, the `global_pass` cookie and the
      `Authorization` header. */
  datatype Request = Request(path: string, cookie: Option<string>, authorization: Option<string>)

  /** Pass to the view, or redirect to `/global_login/`, with an "Invalid password" message
      when `errorMessage` holds. */
  datatype Decision = Pass | RedirectToLogin(errorMessage: bool)

  /** Python truthiness of an optional string. */
  predicate Present(v: Option<string>) {
    v.Some? && v.value != []
  }

  /** The password the gate extracts from a `Basic ` header: every occurrence of `Basic `
      removed, then whitespace stripped. */
  function HeaderPassword(h: string): (p: string)
    ensures |p| <= |h|
  {
    Strip(RemoveAll(h, BasicPrefix))
  }

  /** `PasswordMiddleware.__call__`. */
  function Gate(valid: set<string>, r: Request): (d: Decision)
    ensures r.path in AllowedPaths ==> d == Pass
    ensures Present(r.cookie) && r.cookie.value in valid ==> d == Pass
    ensures d.Pass? && r.path !in AllowedPaths && !(Present(r.cookie) && r.cookie.value in valid) ==>
              Present(r.authorization) && StartsWith(r.authorization.value, BasicPrefix)
              && HeaderPassword(r.authorization.value) in valid
    ensures (Present(r.authorization) && StartsWith(r.authorization.value, BasicPrefix)
             && HeaderPassword(r.authorization.value) in valid) ==> d == Pass
    ensures d.RedirectToLogin? ==> (d.errorMessage <==> Present(r.cookie))
    ensures valid == {} && r.path !in AllowedPaths ==> d.RedirectToLogin?
  {
    if r.path in AllowedPaths then Pass
    else if Present(r.cookie) && r.cookie.value in valid then Pass
    else if Present(r.authorization) && StartsWith(r.authorization.value, BasicPrefix)
            && HeaderPassword(r.authorization.value) in valid then Pass
    else RedirectToLogin(Present(r.cookie))
  }

  /** More valid passwords never turn a request away that was let through. */
  lemma GateMonotone(valid: set<string>, more: set<string>, r: Request)
    requires valid <= more
    ensures Gate(valid, r).Pass? ==> Gate(more, r).Pass?
  {
  }

  /** A header `Basic <p>` passes for every valid password `p` that has no surrounding
      whitespace and does not itself contain `Basic ` (the header is not base64-decoded). */
  lemma BasicHeaderPasses(valid: set<string>, path: string, cookie: Option<string>, p: string)
    requires p in valid
    requires |p| > 0 ==> !IsSpace(p[0]) && !IsSpace(p[|p| - 1])
    requires !Contains(p, BasicPrefix)
    ensures Gate(valid, Request(path, cookie, Some(BasicPrefix + p))) == Pass
  {
    var h := BasicPrefix + p;
    assert h[..|BasicPrefix|] == BasicPrefix;
    RemoveAllLeading(BasicPrefix, p);
    RemoveAllAbsent(p, BasicPrefix);
    StripUntrimmed(p);
  }

  // ----- global_login_view -------------------------------------------------------------------

  /** A GET of the login page, or a POST with the raw `password` field ("" when absent). */
  datatype LoginRequest = ShowForm | SubmitPassword(raw: string)

  /** The form page (200), the form again with an error (401), or a redirect to the main page
      that sets the `global_pass` cookie. */
  datatype LoginReply = LoginForm | LoginFailed | RedirectMain(cookie: string)

  /** `PasswordAuthForm`: a required, stripped `CharField` that refuses NUL characters. */
  function CleanPassword(raw: string): (r: Option<string>)
    ensures r.Some? <==> !AllSpace(raw) && !HasNullCharacter(Strip(raw))
    ensures r.Some? ==> r.value == Strip(raw) && r.value != []
  {
    StripEmptyIffAllSpace(raw);
    var p := Strip(raw);
    if p == [] || HasNullCharacter(p) then None else Some(p)
  }

  /** `global_login_view`: seed the default password on an empty table, then check the
      submitted one. */
  function GlobalLogin(valid: set<string>, req: LoginRequest): (r: (set<string>, LoginReply))
    ensures valid != {} ==> r.0 == valid
    ensures valid == {} ==> r.0 == {DefaultPassword}
    ensures req.ShowForm? ==> r.1 == LoginForm
    ensures req.SubmitPassword? ==>
              (r.1.RedirectMain? <==> CleanPassword(req.raw).Some? && CleanPassword(req.raw).value in r.0)
    ensures r.1.RedirectMain? ==> r.1.cookie == Strip(req.raw) && r.1.cookie in r.0
    ensures req.SubmitPassword? && !r.1.RedirectMain? ==> r.1 == LoginFailed
  {
    var stored := if valid == {} then {DefaultPassword} else valid;
    match req
    case ShowForm => (stored, LoginForm)
    case SubmitPassword(raw) =>
      match CleanPassword(raw)
      case Some(p) => if p in stored then (stored, RedirectMain(p)) else (stored, LoginFailed)
      case None => (stored, LoginFailed)
  }

  /** The cookie a successful login sets opens every path of the site. */
  lemma LoginThenPass(valid: set<string>, raw: string, path: string, authorization: Option<string>)
    ensures var (stored, reply) := GlobalLogin(valid, SubmitPassword(raw));
            reply.RedirectMain? ==> Gate(stored, Request(path, Some(reply.cookie), authorization)) == Pass
  {
  }

  /** On a fresh installation the default password logs in, even padded with whitespace. */
  lemma FreshSiteAcceptsDefault()
    ensures GlobalLogin({}, SubmitPassword(DefaultPassword)) == ({DefaultPassword}, RedirectMain(DefaultPassword))
  {
    DefaultPasswordCleans();
  }

  lemma FreshSiteAcceptsPaddedDefault()
    ensures GlobalLogin({}, SubmitPassword(" " + DefaultPassword + "\n")).1 == RedirectMain(DefaultPassword)
  {
    PaddedPasswordCleans();
  }

  /** Once another password exists the default is neither seeded nor accepted. */
  lemma DefaultNotSeededOnceConfigured()
    ensures GlobalLogin({"123"}, SubmitPassword(DefaultPassword)) == ({"123"}, LoginFailed)
  {
    DefaultPasswordCleans();
  }

  lemma DefaultPasswordCleans()
    ensures CleanPassword(DefaultPassword) == Some(DefaultPassword)
  {
    DefaultPasswordStrips();
    DefaultPasswordHasNoNul();
  }

  lemma PaddedPasswordCleans()
    ensures CleanPassword(" " + DefaultPassword + "\n") == Some(DefaultPassword)
  {
    PaddedPasswordStrips();
    DefaultPasswordHasNoNul();
  }

  lemma DefaultPasswordStrips()
    ensures Strip(DefaultPassword) == DefaultPassword
  {
    StripUntrimmed(DefaultPassword);
  }

  lemma DefaultPasswordHasNoNul()
    ensures !HasNullCharacter(DefaultPassword)
  {
  }

  lemma PaddedPasswordStrips()
    ensures Strip(" " + DefaultPassword + "\n") == DefaultPassword
  {
    var padded := " " + DefaultPassword + "\n";
    var tail := DefaultPassword + "\n";
    assert padded[1..] == tail;
    assert TrimStart(tail) == tail by { assert !IsSpace(tail[0]); }
    assert TrimStart(padded) == tail;
    assert tail[..|tail| - 1] == DefaultPassword;
    assert TrimEnd(DefaultPassword) == DefaultPassword by { assert !IsSpace(DefaultPassword[6]); }
    assert TrimEnd(tail) == DefaultPassword;
  }
}

=== FILE: accounts.dfy ===
/** The account views of user_views.py: the profile statistics, the settings form and the
    language switch. */
module Accounts {
  import opened Common
  import opened Text
  import opened Models

  // ----- user_profile ---------------------------------------------------------------------------

  /** The ratings `user_profile` collects: every comment, on any game, whose author is the
      username and whose rating is not null, in primary-key order. */
  function Votes(cs: seq<Comment>, name: UserName): (vs: seq<int>)
    decreases |cs|
  {
    if |cs| == 0 then []
    else
      var last := cs[|cs| - 1];
      Votes(cs[..|cs| - 1], name) + (if last.author == name && last.rating.Some? then [last.rating.value] else [])
  }

  /** The votes are exactly the ratings of the user's rated comments. */
  lemma {:induction false} VotesAreRatings(cs: seq<Comment>, name: UserName)
    ensures forall v :: v in Votes(cs, name) ==> exists c :: c in cs && c.author == name && c.rating == Some(v)
    ensures forall c :: c in cs && c.author == name && c.rating.Some? ==> c.rating.value in Votes(cs, name)
    decreases |cs|
  {
    if |cs| > 0 {
      var front := cs[..|cs| - 1];
      var last := cs[|cs| - 1];
      assert cs == front + [last];
      VotesAreRatings(front, name);
    }
  }

  function Sum(vs: seq<int>): int
    decreases |vs|
  {
    if |vs| == 0 then 0 else Sum(vs[..|vs| - 1]) + vs[|vs| - 1]
  }

  /** The profile's `average_rating`: the integer 0 without votes, the float 0.0 when the
      ratings add up to nothing, and otherwise the quotient `total / count`. */
  datatype ProfileAverage = NoVotes | ZeroTotal | Quotient(total: int, count: nat)

  datatype ProfileReply = ProfileLoginRedirect | ProfilePage(voteCount: nat, average: ProfileAverage)

  /** `user_profile`. */
  function UserProfile(cs: seq<Comment>, who: Principal): (r: ProfileReply)
    ensures who.Anonymous? <==> r.ProfileLoginRedirect?
    ensures r.ProfilePage? ==> r.voteCount == |Votes(cs, who.name)|
    ensures r.ProfilePage? ==> (r.average.NoVotes? <==> r.voteCount == 0)
    ensures r.ProfilePage? && r.average.Quotient? ==>
              r.average.count == r.voteCount > 0 && r.average.total == Sum(Votes(cs, who.name)) != 0
    ensures r.ProfilePage? && r.average.ZeroTotal? ==> r.voteCount > 0 && Sum(Votes(cs, who.name)) == 0
  {
    match who
    case Anonymous => ProfileLoginRedirect
    case Member(name) =>
      var vs := Votes(cs, name);
      var total := Sum(vs);
      ProfilePage(|vs|, if |vs| > 0 then (if total == 0 then ZeroTotal else Quotient(total, |vs|)) else NoVotes)
  }

  /** A new comment by the user with a rating counts one more vote and adds its rating to the
      total; any other comment changes neither. */
  lemma {:induction false} VotesAppend(cs: seq<Comment>, c: Comment, name: UserName)
    ensures c.author == name && c.rating.Some? ==> Votes(cs + [c], name) == Votes(cs, name) + [c.rating.value]
    ensures !(c.author == name && c.rating.Some?) ==> Votes(cs + [c], name) == Votes(cs, name)
    ensures Sum(Votes(cs + [c], name)) == Sum(Votes(cs, name)) + (if c.author == name && c.rating.Some? then c.rating.value else 0)
  {
    assert (cs + [c])[..|cs|] == cs;
    var vs := Votes(cs, name);
    if c.author == name && c.rating.Some? {
      assert (vs + [c.rating.value])[..|vs|] == vs;
    }
  }

  /** Ratings inside 0..5 keep the total inside 0..5 times the count, so the profile's average
      lies in 0..5 as well. */
  lemma {:induction false} TotalBounded(cs: seq<Comment>, name: UserName)
    requires forall i :: 0 <= i < |cs| && cs[i].rating.Some? ==> 0 <= cs[i].rating.value <= 5
    ensures 0 <= Sum(Votes(cs, name)) <= 5 * |Votes(cs, name)|
    decreases |cs|
  {
    if |cs| > 0 {
      TotalBounded(cs[..|cs| - 1], name);
      VotesAppend(cs[..|cs| - 1], cs[|cs| - 1], name);
      assert cs[..|cs| - 1] + [cs[|cs| - 1]] == cs;
    }
  }

  /** Six comments: "ana" rates four games 2, 3, 4 and 5 and leaves one text-only comment;
      "ben" rates one game 1. */
  function ExampleComments(): seq<Comment> {
    [Comment("g1", "ana", "", Some(2)), Comment("g1", "ana", "nice", None),
     Comment("g2", "ana", "", Some(3)), Comment("g2", "ben", "", Some(1)),
     Comment("g3", "ana", "", Some(4)), Comment("g4", "ana", "", Some(5))]
  }

  /** The example of the project's tests: ratings 2, 3, 4 and 5 give four votes averaging 3.5;
      a text-only comment and another user's rating do not count. */
  lemma ProfileExample()
    ensures var r := UserProfile(ExampleComments(), Member("ana"));
            r == ProfilePage(4, Quotient(14, 4)) && 2 * r.average.total == 7 * r.average.count
  {
    ExampleVotes();
    assert Sum([2, 3, 4, 5]) == 14 by {
      assert [2, 3, 4, 5][..3] == [2, 3, 4];
      assert [2, 3, 4][..2] == [2, 3];
      assert [2, 3][..1] == [2];
      assert [2][..0] == [];
    }
  }

  lemma ExampleVotes()
    ensures Votes(ExampleComments(), "ana") == [2, 3, 4, 5]
  {
    var cs := ExampleComments();
    ExampleVotesFront();
    VotesAppend(cs[..3], cs[3], "ana");
    assert cs[..3] + [cs[3]] == cs[..4];
    VotesAppend(cs[..4], cs[4], "ana");
    assert cs[..4] + [cs[4]] == cs[..5];
    VotesAppend(cs[..5], cs[5], "ana");
    assert cs[..5] + [cs[5]] == cs;
  }

  lemma ExampleVotesFront()
    ensures Votes(ExampleComments()[..3], "ana") == [2, 3]
  {
    var cs := ExampleComments();
    VotesAppend([], cs[0], "ana");
    assert [] + [cs[0]] == cs[..1];
    VotesAppend(cs[..1], cs[1], "ana");
    assert cs[..1] + [cs[1]] == cs[..2];
    VotesAppend(cs[..2], cs[2], "ana");
    assert cs[..2] + [cs[2]] == cs[..3];
  }

  // ----- user_settings --------------------------------------------------------------------------

  type UserId = nat

  /** A `Profile` row: font family and size. */
  datatype Profile = Profile(fontType: string, fontSize: string)

  /** A user account: its username, and its profile row if one was created (at login). */
  datatype Account = Account(username: UserName, profile: Option<Profile>)

  /** The choices of `UserSettingsForm`. */
  const FontTypes: set<string> :=
    {"Arial", "Times New Roman", "Courier", "Verdana", "Georgia", "Tahoma", "Helvetica", "Comic Sans MS"}
  const FontSizes: set<string> := {"10px", "14px", "18px", "22px", "26px"}

  const AliasMaxLength: nat := 100

  /** A GET of the form, or a POST of the three raw fields ("" for an absent one). */
  datatype SettingsRequest = ShowSettings | SaveSettings(alias: string, fontType: string, fontSize: string)

  /** The login redirect, the settings page (with the success message when `saved`), or an
      unhandled exception (500). */
  datatype SettingsReply = SettingsLoginRedirect | SettingsPage(saved: bool) | SettingsError

  /** `UserSettingsForm.is_valid()` and its cleaned data: the alias is stripped, at most 100
      characters and free of NUL; font type and size must be one of the choices. */
  function CleanSettings(alias: string, fontType: string, fontSize: string): (r: Option<(string, string, string)>)
    ensures r.Some? <==> |Strip(alias)| <= AliasMaxLength && !HasNullCharacter(Strip(alias))
                         && fontType in FontTypes && fontSize in FontSizes
    ensures r.Some? ==> r.value == (Strip(alias), fontType, fontSize)
  {
    var a := Strip(alias);
    if |a| <= AliasMaxLength && !HasNullCharacter(a) && fontType in FontTypes && fontSize in FontSizes
    then Some((a, fontType, fontSize))
    else None
  }

  /** Whether another account already holds a username (the column is unique). */
  predicate NameTakenByOther(accounts: map<UserId, Account>, me: UserId, name: UserName) {
    exists u :: u in accounts && u != me && accounts[u].username == name
  }

  predicate DistinctUsernames(accounts: map<UserId, Account>) {
    forall u, v :: u in accounts && v in accounts && u != v ==> accounts[u].username != accounts[v].username
  }

  /** `user_settings`. On a valid POST the username is saved first (an alias another account
      holds violates the unique constraint) and the profile afterwards (a missing profile row
      raises, after the rename was saved). */
  function UserSettings(accounts: map<UserId, Account>, me: Option<UserId>, req: SettingsRequest)
    : (r: (map<UserId, Account>, SettingsReply))
    requires me.Some? ==> me.value in accounts
    ensures me.None? ==> r == (accounts, SettingsLoginRedirect)
    ensures r.1 != SettingsPage(true) && r.1 != SettingsError ==> r.0 == accounts
    ensures r.0.Keys == accounts.Keys
    ensures me.Some? ==> r.0 == accounts[me.value := r.0[me.value]]
    ensures r.1 == SettingsPage(true) <==>
              me.Some? && req.SaveSettings? && CleanSettings(req.alias, req.fontType, req.fontSize).Some?
              && accounts[me.value].profile.Some?
              && (Strip(req.alias) != [] ==> !NameTakenByOther(accounts, me.value, Strip(req.alias)))
    ensures r.1 == SettingsPage(true) ==>
              var after := r.0[me.value];
              && after.profile == Some(Profile(req.fontType, req.fontSize))
              && (Strip(req.alias) != [] ==> after.username == Strip(req.alias))
              && (Strip(req.alias) == [] ==> after.username == accounts[me.value].username)
    ensures me.Some? ==> r.1 != SettingsLoginRedirect
    ensures me.Some? && req.ShowSettings? ==>
              r.0 == accounts && (r.1 == SettingsError <==> accounts[me.value].profile.None?)
    ensures me.Some? && req.SaveSettings? && CleanSettings(req.alias, req.fontType, req.fontSize).None? ==>
              r == (accounts, SettingsPage(false))
    ensures me.Some? && req.SaveSettings? && CleanSettings(req.alias, req.fontType, req.fontSize).Some? ==>
              var a := Strip(req.alias);
              if a != [] && NameTakenByOther(accounts, me.value, a) then r == (accounts, SettingsError)
              else accounts[me.value].profile.None? ==>
                     r == (accounts[me.value := Renamed(accounts[me.value], a)], SettingsError)
  {
    match me
    case None => (accounts, SettingsLoginRedirect)
    case Some(id) =>
      var account := accounts[id];
      match req
      case ShowSettings =>
        if account.profile.None? then (accounts, SettingsError) else (accounts, SettingsPage(false))
      case SaveSettings(alias, fontType, fontSize) =>
        match CleanSettings(alias, fontType, fontSize)
        case None => (accounts, SettingsPage(false))
        case Some(cleaned) =>
          var (a, ft, fs) := cleaned;
          if a != [] && NameTakenByOther(accounts, id, a) then (accounts, SettingsError)
          else
            if account.profile.None? then (accounts[id := Renamed(account, a)], SettingsError)
            else (accounts[id := Saved(account, a, ft, fs)], SettingsPage(true))
  }

  /** The account once a non-blank alias has been saved as its username. */
  function Renamed(account: Account, alias: string): Account {
    if alias != [] then account.(username := alias) else account
  }

  /** The account once the whole form has been saved. */
  function Saved(account: Account, alias: string, fontType: string, fontSize: string): Account {
    Renamed(account, alias).(profile := Some(Profile(fontType, fontSize)))
  }

  /** A save whose form is valid, whose profile exists and whose alias is free stores exactly
      the saved account. */
  lemma SaveSucceeds(accounts: map<UserId, Account>, me: UserId, alias: string, fontType: string, fontSize: string)
    requires me in accounts && accounts[me].profile.Some?
    requires CleanSettings(alias, fontType, fontSize).Some?
    requires Strip(alias) != [] ==> !NameTakenByOther(accounts, me, Strip(alias))
    ensures UserSettings(accounts, Some(me), SaveSettings(alias, fontType, fontSize))
            == (accounts[me := Saved(accounts[me], Strip(alias), fontType, fontSize)], SettingsPage(true))
  {
  }

  /** Usernames stay unique across every settings request. */
  lemma SettingsKeepUsernamesDistinct(accounts: map<UserId, Account>, me: Option<UserId>, req: SettingsRequest)
    requires me.Some? ==> me.value in accounts
    requires DistinctUsernames(accounts)
    ensures DistinctUsernames(UserSettings(accounts, me, req).0)
  {
    if me.Some? && req.SaveSettings? && CleanSettings(req.alias, req.fontType, req.fontSize).Some? {
      SaveKeepsUsernamesDistinct(accounts, me.value, req.alias, req.fontType, req.fontSize);
    }
  }

  /** The case of `SettingsKeepUsernamesDistinct` that writes: a valid form. */
  lemma SaveKeepsUsernamesDistinct(accounts: map<UserId, Account>, id: UserId, alias: string, fontType: string, fontSize: string)
    requires id in accounts && DistinctUsernames(accounts)
    requires CleanSettings(alias, fontType, fontSize).Some?
    ensures DistinctUsernames(UserSettings(accounts, Some(id), SaveSettings(alias, fontType, fontSize)).0)
  {
    var a := Strip(alias);
    if a != [] && NameTakenByOther(accounts, id, a) {
      SaveRefused(accounts, id, alias, fontType, fontSize);
    } else {
      SaveWrites(accounts, id, alias, fontType, fontSize);
      WrittenKeepsDistinct(accounts, id, a, fontType, fontSize);
    }
  }

  /** A valid form whose alias another account holds saves nothing. */
  lemma SaveRefused(accounts: map<UserId, Account>, id: UserId, alias: string, fontType: string, fontSize: string)
    requires id in accounts && CleanSettings(alias, fontType, fontSize).Some?
    requires Strip(alias) != [] && NameTakenByOther(accounts, id, Strip(alias))
    ensures UserSettings(accounts, Some(id), SaveSettings(alias, fontType, fontSize)).0 == accounts
  {
  }

  /** Writing the account a free alias gives keeps usernames unique. */
  lemma WrittenKeepsDistinct(accounts: map<UserId, Account>, id: UserId, a: string, fontType: string, fontSize: string)
    requires id in accounts && DistinctUsernames(accounts)
    requires a != [] ==> !NameTakenByOther(accounts, id, a)
    ensures DistinctUsernames(accounts[id := Written(accounts[id], a, fontType, fontSize)])
  {
    var x := Written(accounts[id], a, fontType, fontSize);
    if a == [] {
      assert x.username == accounts[id].username;
      OwnNameNotTaken(accounts, id);
    } else {
      assert x.username == a;
    }
    RenameKeepsDistinct(accounts, id, x);
  }

  /** What a valid form whose alias is free writes: the renamed account, with the fonts when its
      profile exists. */
  function Written(account: Account, alias: string, fontType: string, fontSize: string): Account {
    if account.profile.None? then Renamed(account, alias) else Saved(account, alias, fontType, fontSize)
  }

  lemma SaveWrites(accounts: map<UserId, Account>, id: UserId, alias: string, fontType: string, fontSize: string)
    requires id in accounts && CleanSettings(alias, fontType, fontSize).Some?
    requires Strip(alias) != [] ==> !NameTakenByOther(accounts, id, Strip(alias))
    ensures UserSettings(accounts, Some(id), SaveSettings(alias, fontType, fontSize)).0
            == accounts[id := Written(accounts[id], Strip(alias), fontType, fontSize)]
  {
  }

  /** Under unique usernames no other account holds the user's own name. */
  lemma OwnNameNotTaken(accounts: map<UserId, Account>, me: UserId)
    requires me in accounts && DistinctUsernames(accounts)
    ensures !NameTakenByOther(accounts, me, accounts[me].username)
  {
  }

  /** Giving one account a name no other account holds keeps usernames unique. */
  lemma RenameKeepsDistinct(accounts: map<UserId, Account>, me: UserId, account: Account)
    requires me in accounts && DistinctUsernames(accounts)
    requires !NameTakenByOther(accounts, me, account.username)
    ensures DistinctUsernames(accounts[me := account])
  {
    var t := accounts[me := account];
    forall u, v | u in t && v in t && u != v
      ensures t[u].username != t[v].username
    {
      if u == me {
        assert t[v] == accounts[v];
      } else if v == me {
        assert t[u] == accounts[u];
      } else {
        assert t[u] == accounts[u] && t[v] == accounts[v];
      }
    }
  }

  /** Submitting the same settings twice leaves the accounts as one submission did: the second
      alias is the user's own name by then, which does not clash. The requires are exactly the
      conditions under which the first submission succeeds. */
  lemma SettingsIdempotent(accounts: map<UserId, Account>, me: UserId, alias: string, fontType: string, fontSize: string)
    requires me in accounts && accounts[me].profile.Some?
    requires CleanSettings(alias, fontType, fontSize).Some?
    requires Strip(alias) != [] ==> !NameTakenByOther(accounts, me, Strip(alias))
    ensures var once := UserSettings(accounts, Some(me), SaveSettings(alias, fontType, fontSize)).0;
            UserSettings(once, Some(me), SaveSettings(alias, fontType, fontSize)) == (once, SettingsPage(true))
  {
    var a := Strip(alias);
    var updated := Saved(accounts[me], a, fontType, fontSize);
    SaveSucceeds(accounts, me, alias, fontType, fontSize);
    var once := accounts[me := updated];
    if a != [] {
      OwnNameStaysFree(accounts, me, a, updated);
    }
    SaveSucceeds(once, me, alias, fontType, fontSize);
    SavedTwice(accounts[me], a, fontType, fontSize);
    UpdateWithOwnValue(once, me);
  }

  /** Saving the same form into an account that already holds it changes nothing. */
  lemma SavedTwice(account: Account, alias: string, fontType: string, fontSize: string)
    ensures var once := Saved(account, alias, fontType, fontSize);
            Saved(once, alias, fontType, fontSize) == once
  {
  }

  lemma UpdateWithOwnValue(m: map<UserId, Account>, k: UserId)
    requires k in m
    ensures m[k := m[k]] == m
  {
  }

  /** Changing only the user's own account frees or takes no name for the others. */
  lemma OwnNameStaysFree(accounts: map<UserId, Account>, me: UserId, name: UserName, account: Account)
    requires !NameTakenByOther(accounts, me, name)
    ensures !NameTakenByOther(accounts[me := account], me, name)
  {
    var t := accounts[me := account];
    forall u | u in t && u != me
      ensures t[u].username != name
    {
      assert t[u] == accounts[u];
    }
  }

  // ----- set_language --------------------------------------------------------------------------

  /** The two languages the site offers. */
  const Languages: set<string> := {"es", "en"}

  /** A redirect that also sets the language cookie, 404, a `NoReverseMatch` left unhandled
      (500), or a `DisallowedRedirect`, which Django answers as a suspicious operation (400). */
  datatype LanguageReply =
    | LanguageRedirect(location: string, cookie: string)
    | LanguageNotFound
    | LanguageError
    | LanguageBadRequest

  /** Django's `resolve_url` for a string: a relative `./` or `../` path is kept, a URL name
      (taking no arguments) is reversed, and anything else is kept only if it contains '/' or
      '.', so that a bare word that names no URL raises. `routes` maps the names that reverse
      without arguments to their paths. */
  function ResolveUrl(to: string, routes: map<string, string>): (r: Option<string>)
    ensures r.None? <==> !StartsWith(to, "./") && !StartsWith(to, "../") && to !in routes && '/' !in to && '.' !in to
  {
    if StartsWith(to, "./") || StartsWith(to, "../") then Some(to)
    else if to in routes then Some(routes[to])
    else if '/' !in to && '.' !in to then None
    else Some(to)
  }

  /** The text before the first ':' of `url`, when it has one. */
  function BeforeColon(url: string): (r: Option<string>)
    ensures r.None? <==> ':' !in url
    ensures r.Some? ==> |r.value| < |url| && r.value == url[..|r.value|] && url[|r.value|] == ':'
                        && ':' !in r.value
  {
    if |url| == 0 then None
    else if url[0] == ':' then Some([])
    else
      match BeforeColon(url[1..])
      case None =>
        assert forall k :: 1 <= k < |url| ==> url[k] == url[1..][k - 1];
        None
      case Some(p) =>
        assert url[..|p| + 1] == [url[0]] + url[1..][..|p|];
        Some([url[0]] + p)
  }

  predicate IsAsciiLetter(c: char) {
    'a' <= c <= 'z' || 'A' <= c <= 'Z'
  }

  /** The characters `urllib.parse` allows in a scheme. */
  predicate IsSchemeChar(c: char) {
    IsAsciiLetter(c) || '0' <= c <= '9' || c == '+' || c == '-' || c == '.'
  }

  function LowerAscii(c: char): char {
    if 'A' <= c <= 'Z' then (c as int + 32) as char else c
  }

  /** `urlparse(url).scheme`: the text before the first ':' when it is non-empty, starts with an
      ASCII letter and holds only scheme characters, lower-cased; "" otherwise. */
  function UrlScheme(url: string): (scheme: string)
    ensures scheme != [] ==>
              && |scheme| < |url| && url[|scheme|] == ':' && ':' !in url[..|scheme|]
              && IsAsciiLetter(url[0])
              && (forall k :: 0 <= k < |scheme| ==> IsSchemeChar(url[k]) && scheme[k] == LowerAscii(url[k]))
    ensures |url| == 0 || !IsAsciiLetter(url[0]) ==> scheme == []
  {
    match BeforeColon(url)
    case None => []
    case Some(p) =>
      if p != [] && IsAsciiLetter(p[0]) && forall k :: 0 <= k < |p| ==> IsSchemeChar(p[k])
      then seq(|p|, k requires 0 <= k < |p| => LowerAscii(p[k]))
      else []
  }

  /** Any prefix that ends at the first ':', starts with a letter and holds only scheme
      characters is read as the scheme. */
  lemma SchemeOfPrefix(url: string, i: nat)
    requires 0 < i < |url| && url[i] == ':' && ':' !in url[..i]
    requires IsAsciiLetter(url[0]) && forall k :: 0 <= k < i ==> IsSchemeChar(url[k])
    ensures |UrlScheme(url)| == i
    ensures forall k :: 0 <= k < i ==> UrlScheme(url)[k] == LowerAscii(url[k])
  {
    assert BeforeColon(url).value == url[..i];
  }

  /** The schemes `HttpResponseRedirect` accepts; a target with any other scheme raises
      `DisallowedRedirect`. */
  const RedirectSchemes: set<string> := {"http", "https", "ftp"}

  predicate RedirectAllowed(location: string) {
    UrlScheme(location) == [] || UrlScheme(location) in RedirectSchemes
  }

  /** `set_language(request, lang_code)`. `pathOf` is `urlparse(...).path`. */
  function SetLanguage(langCode: string, referer: Option<string>, pathOf: string -> string,
                       routes: map<string, string>): (r: LanguageReply)
    ensures langCode !in Languages <==> r == LanguageNotFound
    ensures r.LanguageRedirect? ==> r.cookie == langCode
    ensures langCode in Languages ==>
              var path := pathOf(referer.GetOr("/"));
              (r.LanguageRedirect? <==> ResolveUrl(path, routes).Some? && RedirectAllowed(ResolveUrl(path, routes).value))
              && (r.LanguageRedirect? ==> r.location == ResolveUrl(path, routes).value)
              && (r == LanguageError <==> ResolveUrl(path, routes).None?)
              && (r == LanguageBadRequest <==> ResolveUrl(path, routes).Some? && !RedirectAllowed(ResolveUrl(path, routes).value))
  {
    if langCode !in Languages then LanguageNotFound
    else
      match ResolveUrl(pathOf(referer.GetOr("/")), routes)
      case None => LanguageError
      case Some(location) => if RedirectAllowed(location) then LanguageRedirect(location, langCode) else LanguageBadRequest
  }

  /** For an accepted language and a referer whose path is an absolute path that names no
      route, the visitor is sent back to exactly that path, with the query string dropped by
      `pathOf`. Without a referer the path of "/" is used. */
  lemma LanguageReturnsToReferer(langCode: string, referer: Option<string>, pathOf: string -> string,
                                 routes: map<string, string>)
    requires langCode in Languages
    requires var path := pathOf(referer.GetOr("/")); |path| > 0 && path[0] == '/' && path !in routes
    ensures SetLanguage(langCode, referer, pathOf, routes) == LanguageRedirect(pathOf(referer.GetOr("/")), langCode)
  {
    var path := pathOf(referer.GetOr("/"));
    assert path[0] in path;
  }

  /** A referer whose path reads as a URL with a scheme other than http, https or ftp (such as
      the path "mailto:a@b.c" of the referer "x:mailto:a@b.c") resolves to itself, and the
      redirect to it is refused as a bad request. */
  lemma DisallowedSchemeFails(langCode: string, referer: Option<string>, pathOf: string -> string,
                              routes: map<string, string>)
    requires langCode in Languages
    requires pathOf(referer.GetOr("/")) == "mailto:a@b.c" && "mailto:a@b.c" !in routes
    ensures SetLanguage(langCode, referer, pathOf, routes) == LanguageBadRequest
  {
    MailtoResolvesToItself(routes);
    MailtoScheme(pathOf(referer.GetOr("/")));
  }

  lemma MailtoResolvesToItself(routes: map<string, string>)
    requires "mailto:a@b.c" !in routes
    ensures ResolveUrl("mailto:a@b.c", routes) == Some("mailto:a@b.c")
  {
    var path := "mailto:a@b.c";
    assert path[10] == '.';
    assert !StartsWith(path, "./") by { assert path[0] != '.'; }
    assert !StartsWith(path, "../") by { assert path[0] != '.'; }
  }

  lemma MailtoScheme(path: string)
    requires path == "mailto:a@b.c"
    ensures UrlScheme(path) == "mailto"
    ensures !RedirectAllowed(path)
  {
    var name := "mailto";
    assert path[..6] == name;
    assert ':' !in name;
    assert forall k :: 0 <= k < 6 ==> IsSchemeChar(name[k]) && LowerAscii(name[k]) == name[k];
    SchemeOfPrefix(path, 6);
    assert UrlScheme(path) == name;
    assert name != "http" by { assert |name| == 6; }
    assert name != "https" by { assert |name| == 6; }
    assert name != "ftp" by { assert |name| == 6; }
  }

  /** A referer without a path (such as "http://host") makes the redirect raise. */
  lemma EmptyRefererPathFails(langCode: string, referer: Option<string>, pathOf: string -> string,
                              routes: map<string, string>)
    requires langCode in Languages
    requires pathOf(referer.GetOr("/")) == [] && [] !in routes
    ensures SetLanguage(langCode, referer, pathOf, routes) == LanguageError
  {
  }
}

=== FILE: common.dfy ===
/** Small shared vocabulary: optional values and who is making a request. */
module Common {

  /** Python's `None` versus a present value. */
  datatype Option<+T> = None | Some(value: T) {
    function GetOr(default: T): T {
      match this
      case Some(v) => v
      case None => default
    }
  }

  /** The user behind a request: Django's `AnonymousUser` or a signed-in account, identified by
      its username (the model uses the username as the key of follows, likes and comments). */
  datatype Principal = Anonymous | Member(name: string) {
    predicate IsAuthenticated() { Member? }
  }
}

=== FILE: dates.dfy ===
/** Release dates. `is_valid_date` in utils.py is `datetime.strptime(s, '%Y-%m-%d')` with the
    `ValueError` caught; the date Django then stores comes from `parse_date`. Both are modelled
    here over ASCII digits. */
module Dates {
  import opened Common

  datatype Date = Date(year: int, month: int, day: int)

  /** The fallback the ingestion loop stores when a feed's date is missing or rejected. */
  const FallbackDateText: string := "2025-01-01"
  const FallbackDate: Date := Date(2025, 1, 1)

  predicate IsLeapYear(y: int) {
    y % 4 == 0 && (y % 100 != 0 || y % 400 == 0)
  }

  function DaysInMonth(y: int, m: int): (n: int)
    requires 1 <= m <= 12
    ensures 28 <= n <= 31
    ensures m == 2 ==> (n == 29 <==> IsLeapYear(y))
  {
    if m == 2 then (if IsLeapYear(y) then 29 else 28)
    else if m == 4 || m == 6 || m == 9 || m == 11 then 30
    else 31
  }

  /** A date `datetime.date` accepts: year 1..9999 and a day that exists in its month. */
  predicate IsCalendarDate(d: Date) {
    1 <= d.year <= 9999 && 1 <= d.month <= 12 && 1 <= d.day <= DaysInMonth(d.year, d.month)
  }

  predicate IsDigit(c: char) { '0' <= c <= '9' }

  function DigitValue(c: char): (v: int)
    requires IsDigit(c)
    ensures 0 <= v <= 9
  {
    c as int - '0' as int
  }

  function Digit(v: int): (c: char)
    requires 0 <= v <= 9
    ensures IsDigit(c) && DigitValue(c) == v
  {
    ('0' as int + v) as char
  }

  /** `%m` followed by the literal '-': the alternatives `1[0-2]`, `0[1-9]`, `[1-9]` in the
      order the regular expression tries them. Yields the month and the characters it used. */
  function MonthToken(s: string): (r: Option<(int, int)>)
    ensures r.Some? ==> 1 <= r.value.0 <= 12 && 1 <= r.value.1 <= 2
    ensures r.Some? ==> r.value.1 < |s| && s[r.value.1] == '-'
  {
    if |s| >= 3 && s[0] == '1' && '0' <= s[1] <= '2' && s[2] == '-' then Some((10 + DigitValue(s[1]), 2))
    else if |s| >= 3 && s[0] == '0' && '1' <= s[1] <= '9' && s[2] == '-' then Some((DigitValue(s[1]), 2))
    else if |s| >= 2 && '1' <= s[0] <= '9' && s[1] == '-' then Some((DigitValue(s[0]), 1))
    else None
  }

  /** `%d` at the end of the format: the first of `3[01]`, `[12]\d`, `0[1-9]`, `[1-9]`, ` [1-9]`
      that matches at the start of `s`. Nothing follows it in the pattern, so the regular
      expression stops there and leftover text is reported later as unconverted data. */
  function DayToken(s: string): (r: Option<(int, int)>)
    ensures r.Some? ==> 1 <= r.value.0 <= 31 && 1 <= r.value.1 <= 2 && r.value.1 <= |s|
  {
    if |s| >= 2 && s[0] == '3' && '0' <= s[1] <= '1' then Some((30 + DigitValue(s[1]), 2))
    else if |s| >= 2 && '1' <= s[0] <= '2' && IsDigit(s[1]) then Some((10 * DigitValue(s[0]) + DigitValue(s[1]), 2))
    else if |s| >= 2 && s[0] == '0' && '1' <= s[1] <= '9' then Some((DigitValue(s[1]), 2))
    else if |s| >= 1 && '1' <= s[0] <= '9' then Some((DigitValue(s[0]), 1))
    else if |s| >= 2 && s[0] == ' ' && '1' <= s[1] <= '9' then Some((DigitValue(s[1]), 2))
    else None
  }

  /** The fields `strptime(s, '%Y-%m-%d')` reads, before the calendar check: four digits, '-',
      a month token, '-', a day token, and no unconverted text after it. */
  function StrptimeFields(s: string): (r: Option<Date>)
    ensures r.Some? ==> 1 <= r.value.month <= 12 && 1 <= r.value.day <= 31 && 0 <= r.value.year <= 9999
  {
    if |s| < 5 || !(IsDigit(s[0]) && IsDigit(s[1]) && IsDigit(s[2]) && IsDigit(s[3])) || s[4] != '-' then None
    else
      var year := 1000 * DigitValue(s[0]) + 100 * DigitValue(s[1]) + 10 * DigitValue(s[2]) + DigitValue(s[3]);
      match MonthToken(s[5..])
      case None => None
      case Some(m) =>
        var rest := s[5 + m.1 + 1..];
        match DayToken(rest)
        case None => None
        case Some(d) => if d.1 == |rest| then Some(Date(year, m.0, d.0)) else None
  }

  /** `is_valid_date(s)`: strptime parses `s` completely and the fields form a real date. */
  predicate IsValidDate(s: string) {
    StrptimeFields(s).Some? && IsCalendarDate(StrptimeFields(s).value)
  }

  /** The date Django's `parse_date` makes of a string `is_valid_date` accepted. Its pattern
      `\d{4}-\d{1,2}-\d{1,2}` has no room for the space-padded day strptime tolerates, so such
      a string yields `None`, which the NOT NULL release-date column then refuses. */
  function StoredDate(s: string): (r: Option<Date>)
    requires IsValidDate(s)
    ensures r.Some? ==> IsCalendarDate(r.value) && Some(r.value) == StrptimeFields(s)
    ensures r.None? <==> ' ' in s
  {
    if ' ' in s then None else StrptimeFields(s)
  }

  /** `'%04d-%02d-%02d'`, the form the feeds use. */
  function Format(d: Date): (s: string)
    requires IsCalendarDate(d)
    ensures |s| == 10
  {
    [Digit(d.year / 1000), Digit(d.year / 100 % 10), Digit(d.year / 10 % 10), Digit(d.year % 10), '-',
     Digit(d.month / 10), Digit(d.month % 10), '-', Digit(d.day / 10), Digit(d.day % 10)]
  }

  /** Every calendar date written the feeds' way is accepted and read back unchanged, both by
      strptime and by `parse_date`. */
  lemma FormatRoundTrip(d: Date)
    requires IsCalendarDate(d)
    ensures IsValidDate(Format(d))
    ensures StrptimeFields(Format(d)) == Some(d)
    ensures StoredDate(Format(d)) == Some(d)
  {
    var s := Format(d);
    YearDigits(d.year);
    MonthDigits(d.month);
    DayDigits(d.day);
    assert s[5..] == [s[5], s[6], '-', s[8], s[9]];
    assert s[5 + 2 + 1..] == [s[8], s[9]];
    assert StrptimeFields(s) == Some(d);
    assert ' ' !in s;
  }

  lemma YearDigits(y: int)
    requires 0 <= y <= 9999
    ensures 1000 * (y / 1000) + 100 * (y / 100 % 10) + 10 * (y / 10 % 10) + y % 10 == y
  {
    var t := y / 10;
    var h := t / 10;
    DivTen(y);
    DivTen(t);
    DivTen(h);
    assert y == 100 * h + (10 * (t % 10) + y % 10);
    assert y / 100 == h;
    assert y == 1000 * (h / 10) + (100 * (h % 10) + 10 * (t % 10) + y % 10);
    assert y / 1000 == h / 10;
  }

  lemma DivTen(n: int)
    requires n >= 0
    ensures n == 10 * (n / 10) + n % 10 && 0 <= n % 10 < 10
  {
  }


  lemma MonthDigits(m: int)
    requires 1 <= m <= 12
    ensures MonthToken([Digit(m / 10), Digit(m % 10), '-', '0', '0']) == Some((m, 2))
  {
  }

  lemma DayDigits(d: int)
    requires 1 <= d <= 31
    ensures DayToken([Digit(d / 10), Digit(d % 10)]) == Some((d, 2))
  {
  }

  /** Whatever the input, the date text the ingestion loop keeps is one `is_valid_date` accepts:
      the raw text when it passes, the fallback otherwise. */
  function ChooseDateText(raw: Option<string>): (t: string)
    ensures IsValidDate(t)
    ensures raw.Some? && IsValidDate(raw.value) ==> t == raw.value
    ensures !(raw.Some? && IsValidDate(raw.value)) ==> t == FallbackDateText
  {
    FallbackIsValid();
    if raw.None? || !IsValidDate(raw.value) then FallbackDateText else raw.value
  }

  lemma FallbackIsValid()
    ensures IsValidDate(FallbackDateText) && StoredDate(FallbackDateText) == Some(FallbackDate)
  {
    FormatRoundTrip(FallbackDate);
    assert Format(FallbackDate) == FallbackDateText;
  }

  /** The two feed dates quoted in utils.py are rejected; strptime's tolerance for unpadded and
      space-padded fields is kept. */
  lemma DateExamples()
    ensures !IsValidDate("2014-02-30")
    ensures !IsValidDate("2014-03-00")
    ensures IsValidDate("2016-02-29") && !IsValidDate("2014-02-29")
    ensures IsValidDate("2014-3-5") && StoredDate("2014-3-5") == Some(Date(2014, 3, 5))
    ensures IsValidDate("2014-03- 5") && StoredDate("2014-03- 5") == None
    ensures !IsValidDate("2014-03-05 ") && !IsValidDate("14-03-05") && !IsValidDate("0000-01-01")
  {
    FeedDatesRejected();
    LeapDays();
    UnpaddedAccepted();
    SpacePaddedAccepted();
    MalformedRejected();
  }

  lemma FeedDatesRejected()
    ensures !IsValidDate("2014-02-30") && !IsValidDate("2014-03-00")
  {
    var a := "2014-02-30";
    assert a[5..] == "02-30";
    assert a[8..] == "30";
    var b := "2014-03-00";
    assert b[5..] == "03-00";
    assert b[8..] == "00";
  }

  lemma LeapDays()
    ensures IsValidDate("2016-02-29") && !IsValidDate("2014-02-29")
  {
    var c := "2016-02-29";
    assert c[5..] == "02-29";
    assert c[8..] == "29";
    var c2 := "2014-02-29";
    assert c2[5..] == "02-29";
    assert c2[8..] == "29";
  }

  lemma UnpaddedAccepted()
    ensures IsValidDate("2014-3-5") && StoredDate("2014-3-5") == Some(Date(2014, 3, 5))
  {
    var e := "2014-3-5";
    assert e[5..] == "3-5";
    assert e[7..] == "5";
  }

  lemma SpacePaddedAccepted()
    ensures IsValidDate("2014-03- 5") && StoredDate("2014-03- 5") == None
  {
    var f := "2014-03- 5";
    assert f[5..] == "03- 5";
    assert f[8..] == " 5";
    assert f[8] == ' ';
  }

  lemma MalformedRejected()
    ensures !IsValidDate("2014-03-05 ") && !IsValidDate("14-03-05") && !IsValidDate("0000-01-01")
  {
    var g := "2014-03-05 ";
    assert g[5..] == "03-05 ";
    assert g[8..] == "05 ";
    var h := "0000-01-01";
    assert h[5..] == "01-01";
    assert h[8..] == "01";
  }
}

=== FILE: follows.dfy ===
/** `follow_game` and `unfollow_game` (game_views.py): the set of (user, game) follow rows. */
module Follows {
  import opened Common
  import opened Models

  /** What the views answer: the login redirect of `@login_required`, 404 for an unknown game,
      or the confirmation page. */
  datatype FollowReply = LoginRedirect | GameNotFound | Confirmed

  /** `follow_game`: `get_or_create` of the row for the pair. */
  function FollowGame(s: Store, who: Principal, game: GameId): (r: (Store, FollowReply))
    ensures r.1 == LoginRedirect <==> who.Anonymous?
    ensures r.1 == GameNotFound <==> who.Member? && game !in s.games
    ensures r.1 != Confirmed ==> r.0 == s
    ensures r.0.games == s.games && r.0.comments == s.comments && r.0.likes == s.likes
    ensures r.1 == Confirmed ==> r.0.follows == s.follows + {(who.name, game)}
  {
    match who
    case Anonymous => (s, LoginRedirect)
    case Member(name) =>
      if game !in s.games then (s, GameNotFound)
      else (s.(follows := s.follows + {(name, game)}), Confirmed)
  }

  /** `unfollow_game`: delete the pair's row, if there is one. */
  function UnfollowGame(s: Store, who: Principal, game: GameId): (r: (Store, FollowReply))
    ensures r.1 == LoginRedirect <==> who.Anonymous?
    ensures r.1 == GameNotFound <==> who.Member? && game !in s.games
    ensures r.1 != Confirmed ==> r.0 == s
    ensures r.0.games == s.games && r.0.comments == s.comments && r.0.likes == s.likes
    ensures r.1 == Confirmed ==> r.0.follows == s.follows - {(who.name, game)}
  {
    match who
    case Anonymous => (s, LoginRedirect)
    case Member(name) =>
      if game !in s.games then (s, GameNotFound)
      else (s.(follows := s.follows - {(name, game)}), Confirmed)
  }

  /** Following twice is following once. */
  lemma FollowIdempotent(s: Store, who: Principal, game: GameId)
    ensures FollowGame(FollowGame(s, who, game).0, who, game) == FollowGame(s, who, game)
  {
  }

  /** Unfollowing twice is unfollowing once; the second call finds no row and still confirms. */
  lemma UnfollowIdempotent(s: Store, who: Principal, game: GameId)
    ensures UnfollowGame(UnfollowGame(s, who, game).0, who, game) == UnfollowGame(s, who, game)
  {
    if who.Member? {
      var pair := (who.name, game);
      assert s.follows - {pair} - {pair} == s.follows - {pair};
    }
  }

  /** After a confirmed follow the user follows the game, after a confirmed unfollow they do not,
      and whether anybody follows any other game, or this user any other game, is unchanged. */
  lemma FollowStatus(s: Store, name: UserName, game: GameId, who: Principal, other: GameId)
    requires game in s.games
    requires who != Member(name) || other != game
    ensures var t := FollowGame(s, Member(name), game).0;
            && IsFollowedByUser(t.follows, Member(name), game)
            && IsFollowedByUser(t.follows, who, other) == IsFollowedByUser(s.follows, who, other)
    ensures var t := UnfollowGame(s, Member(name), game).0;
            && !IsFollowedByUser(t.follows, Member(name), game)
            && IsFollowedByUser(t.follows, who, other) == IsFollowedByUser(s.follows, who, other)
  {
  }

  /** Follow then unfollow removes the pair whether or not it was there before; unfollow then
      follow adds it back. */
  lemma FollowUnfollowRoundTrip(s: Store, name: UserName, game: GameId)
    requires game in s.games
    ensures UnfollowGame(FollowGame(s, Member(name), game).0, Member(name), game).0.follows
            == s.follows - {(name, game)}
    ensures (name, game) in s.follows ==>
              FollowGame(UnfollowGame(s, Member(name), game).0, Member(name), game).0 == s
  {
  }
}

=== FILE: ingest.dfy ===
/** Catalogue ingestion (utils.py): each feed record is normalised into a prepared game, then
    inserted unless a game with its id or its title already exists. Any exception ends the
    batch; the games inserted before it stay. */
module Ingest {
  import opened Common
  import opened Text
  import opened Dates
  import opened Models

  type Catalog = map<GameId, Game>

  /** `d` keeps every game of `c`, unchanged. */
  predicate Extends(c: Catalog, d: Catalog) {
    forall k :: k in c ==> k in d && d[k] == c[k]
  }

  /** `Game.objects.filter(title=t).exists()`. */
  predicate TitleTaken(c: Catalog, t: string) {
    exists k :: k in c && c[k].title == t
  }

  predicate DistinctTitles(c: Catalog) {
    forall a, b :: a in c && b in c && a != b ==> c[a].title != c[b].title
  }

  // ----- the decision per record ----------------------------------------------------------------

  /** The title a record is looked up by: the key is absent (a `KeyError`, JSON only), it is
      null (a NULL lookup matches no game), or a string. */
  datatype TitleKey = TitleMissing | TitleNull | Title(text: string)

  /** A feed record after the steps that run before the duplicate check. `Malformed` is a
      record for which one of those steps raises; otherwise `game` is the row the insert would
      write, or `None` when the insert itself would raise (a NULL in a NOT NULL column, or a
      release date Django cannot parse). */
  datatype Prepared = Malformed | Ready(id: GameId, title: TitleKey, game: Option<Game>)

  /** What every preparation guarantees: an insertable row has the looked-up title and the
      zero rating state. */
  predicate Coherent(p: Prepared) {
    p.Ready? && p.game.Some? ==> p.title == Title(p.game.value.title) && p.game.value.IsUnrated()
  }

  datatype Step = Skip | Insert(game: Game) | Abort

  /** One iteration of the loop: the id is checked first, then the title, then the row is
      created. */
  function Decide(c: Catalog, p: Prepared): (r: Step)
    ensures r.Insert? <==>
              p.Ready? && p.id !in c && p.title.Title? && !TitleTaken(c, p.title.text) && p.game.Some?
    ensures r.Insert? ==> r.game == p.game.value
    ensures r.Skip? <==> p.Ready? && (p.id in c || (p.title.Title? && TitleTaken(c, p.title.text)))
  {
    match p
    case Malformed => Abort
    case Ready(id, title, game) =>
      if id in c then Skip
      else
        match title
        case TitleMissing => Abort
        case TitleNull => Abort
        case Title(t) =>
          if TitleTaken(c, t) then Skip
          else if game.None? then Abort
          else Insert(game.value)
  }

  /** How a batch ended: every record processed, or an exception at record `at`. */
  datatype Outcome = Completed | Aborted(at: nat)

  function Shift(r: (Catalog, Outcome)): (Catalog, Outcome) {
    match r.1
    case Completed => r
    case Aborted(i) => (r.0, Aborted(i + 1))
  }

  /** The insertion loop over a batch of prepared records. */
  function Ingest(c: Catalog, ps: seq<Prepared>): (r: (Catalog, Outcome))
    ensures Extends(c, r.0)
    ensures r.1.Aborted? ==> r.1.at < |ps|
    decreases |ps|
  {
    if |ps| == 0 then (c, Completed)
    else
      var p := ps[0];
      match Decide(c, p)
      case Abort => (c, Aborted(0))
      case Skip => Shift(Ingest(c, ps[1..]))
      case Insert(g) => Shift(Ingest(c[p.id := g], ps[1..]))
  }

  /** Every game a batch adds is the row of one of its records, stored under that record's id. */
  lemma {:induction false} NewKeysFromRecords(c: Catalog, ps: seq<Prepared>)
    ensures var d := Ingest(c, ps).0;
            forall k :: k in d && k !in c ==>
              exists i :: 0 <= i < |ps| && ps[i].Ready? && ps[i].id == k && ps[i].game == Some(d[k])
    decreases |ps|
  {
    if |ps| > 0 {
      var p := ps[0];
      match Decide(c, p)
      case Abort =>
      case Skip =>
        NewKeysFromRecords(c, ps[1..]);
        NewKeysShift(c, ps, Ingest(c, ps[1..]).0);
      case Insert(g) =>
        var c' := c[p.id := g];
        var d := Ingest(c', ps[1..]).0;
        NewKeysFromRecords(c', ps[1..]);
        NewKeysShift(c', ps, d);
        assert d[p.id] == g;
    }
  }

  /** Bookkeeping for `Ingest`: a key new with respect to `ps[1..]` is new with respect to
      `ps`, at an index one higher. */
  lemma NewKeysShift(c: Catalog, ps: seq<Prepared>, d: Catalog)
    requires |ps| > 0
    requires forall k :: k in d && k !in c ==>
               exists i :: 0 <= i < |ps[1..]| && ps[1..][i].Ready? && ps[1..][i].id == k && ps[1..][i].game == Some(d[k])
    ensures forall k :: k in d && k !in c ==>
              exists i :: 0 <= i < |ps| && ps[i].Ready? && ps[i].id == k && ps[i].game == Some(d[k])
  {
    forall k | k in d && k !in c
      ensures exists i :: 0 <= i < |ps| && ps[i].Ready? && ps[i].id == k && ps[i].game == Some(d[k])
    {
      var i :| 0 <= i < |ps[1..]| && ps[1..][i].Ready? && ps[1..][i].id == k && ps[1..][i].game == Some(d[k]);
      assert ps[i + 1] == ps[1..][i];
    }
  }

  // ----- properties of the loop -----------------------------------------------------------------

  /** A batch that raised at record `k` did exactly what the loop over its first `k` records
      did, and record `k` raised against the catalogue those left. */
  lemma {:induction false} AbortedAt(c: Catalog, ps: seq<Prepared>)
    requires Ingest(c, ps).1.Aborted?
    ensures var (d, out) := Ingest(c, ps);
            Ingest(c, ps[..out.at]) == (d, Completed) && Decide(d, ps[out.at]) == Abort
    decreases |ps|, 1
  {
    var p := ps[0];
    match Decide(c, p)
    case Abort =>
    case Skip =>
      AbortedAfterFirst(c, ps, c);
    case Insert(g) =>
      AbortedAfterFirst(c, ps, c[p.id := g]);
  }

  /** The step of `AbortedAt`: the first record moved the catalogue from `c` to `c'` without
      raising. */
  lemma {:induction false} AbortedAfterFirst(c: Catalog, ps: seq<Prepared>, c': Catalog)
    requires |ps| > 0 && Ingest(c, ps).1.Aborted?
    requires Decide(c, ps[0]).Skip? ==> c' == c
    requires Decide(c, ps[0]).Insert? ==> c' == c[ps[0].id := Decide(c, ps[0]).game]
    requires !Decide(c, ps[0]).Abort?
    ensures var (d, out) := Ingest(c, ps);
            Ingest(c, ps[..out.at]) == (d, Completed) && Decide(d, ps[out.at]) == Abort
    decreases |ps|, 0
  {
    var rest := ps[1..];
    assert Ingest(c, ps) == Shift(Ingest(c', rest));
    AbortedAt(c', rest);
    var (d, out) := Ingest(c', rest);
    var k := out.at;
    var front := ps[..k + 1];
    assert front[0] == ps[0] && front[1..] == rest[..k];
    assert Ingest(c, front) == Shift(Ingest(c', rest[..k]));
    assert ps[k + 1] == rest[k];
  }

  /** Records after the one that raised are never looked at. */
  lemma {:induction false} AbortStopsBatch(c: Catalog, ps: seq<Prepared>, qs: seq<Prepared>)
    requires Ingest(c, ps).1.Aborted?
    ensures Ingest(c, ps + qs) == Ingest(c, ps)
    decreases |ps|
  {
    var p := ps[0];
    assert (ps + qs)[0] == p;
    assert (ps + qs)[1..] == ps[1..] + qs;
    match Decide(c, p)
    case Abort =>
    case Skip =>
      AbortStopsBatch(c, ps[1..], qs);
    case Insert(g) =>
      AbortStopsBatch(c[p.id := g], ps[1..], qs);
  }

  /** An outcome seen from `n` records earlier in a longer batch. */
  function After(n: nat, out: Outcome): Outcome {
    match out
    case Completed => Completed
    case Aborted(i) => Aborted(i + n)
  }

  /** A batch split in two: when the first part completes, the second part runs on what the
      first part left. */
  lemma {:induction false} IngestConcat(c: Catalog, ps: seq<Prepared>, qs: seq<Prepared>)
    requires Ingest(c, ps).1.Completed?
    ensures Ingest(c, ps + qs).0 == Ingest(Ingest(c, ps).0, qs).0
    ensures Ingest(c, ps + qs).1 == After(|ps|, Ingest(Ingest(c, ps).0, qs).1)
    decreases |ps|
  {
    if |ps| == 0 {
      assert ps + qs == qs;
    } else {
      var p := ps[0];
      assert (ps + qs)[0] == p;
      assert (ps + qs)[1..] == ps[1..] + qs;
      var c' := match Decide(c, p) case Insert(g) => c[p.id := g] case _ => c;
      assert Ingest(c, ps) == Shift(Ingest(c', ps[1..]));
      assert Ingest(c, ps + qs) == Shift(Ingest(c', ps[1..] + qs));
      IngestConcat(c', ps[1..], qs);
    }
  }

  /** A batch that completed against a catalogue without changing it skipped every record. */
  lemma {:induction false} UnchangedSkipsAll(d: Catalog, ps: seq<Prepared>)
    requires Ingest(d, ps) == (d, Completed)
    ensures forall i :: 0 <= i < |ps| ==> Decide(d, ps[i]).Skip?
    decreases |ps|
  {
    if |ps| > 0 {
      var p := ps[0];
      match Decide(d, p)
      case Abort =>
      case Insert(g) =>
      case Skip =>
        UnchangedSkipsAll(d, ps[1..]);
        forall i | 1 <= i < |ps|
          ensures Decide(d, ps[i]).Skip?
        {
          assert ps[i] == ps[1..][i - 1];
        }
    }
  }

  /** Every record of a completed batch is skipped against the catalogue it produced: nothing
      insertable is left behind. */
  lemma CompletedSkipsAll(c: Catalog, ps: seq<Prepared>)
    requires Ingest(c, ps).1.Completed?
    ensures forall i :: 0 <= i < |ps| ==> Decide(Ingest(c, ps).0, ps[i]).Skip?
  {
    IngestIdempotent(c, ps);
    UnchangedSkipsAll(Ingest(c, ps).0, ps);
  }

  /** Every prefix that ends no later than the record that raised runs to completion. */
  lemma {:induction false} PrefixCompleted(c: Catalog, ps: seq<Prepared>, j: nat)
    requires j <= |ps|
    requires Ingest(c, ps).1.Completed? || j <= Ingest(c, ps).1.at
    ensures Ingest(c, ps[..j]).1.Completed?
    decreases |ps|
  {
    if j > 0 {
      var p := ps[0];
      if !Decide(c, p).Abort? {
        var c' := match Decide(c, p) case Insert(g) => c[p.id := g] case _ => c;
        assert Ingest(c, ps) == Shift(Ingest(c', ps[1..]));
        assert ps[..j][0] == p && ps[..j][1..] == ps[1..][..j - 1];
        assert Ingest(c, ps[..j]) == Shift(Ingest(c', ps[1..][..j - 1]));
        PrefixCompleted(c', ps[1..], j - 1);
      }
    }
  }

  /** A record that is insertable when its turn comes, before any record raised, is in the
      resulting catalogue under its id, with its row. */
  lemma InsertedStays(c: Catalog, ps: seq<Prepared>, i: nat)
    requires i < |ps|
    requires Ingest(c, ps).1.Completed? || i < Ingest(c, ps).1.at
    requires Decide(Ingest(c, ps[..i]).0, ps[i]).Insert?
    ensures ps[i].id in Ingest(c, ps).0 && Ingest(c, ps).0[ps[i].id] == ps[i].game.value
  {
    PrefixCompleted(c, ps, i);
    PrefixCompleted(c, ps, i + 1);
    InsertStep(c, ps, i);
    PrefixExtends(c, ps, i + 1);
  }

  /** The step of `InsertedStays`: the prefix that ends with the record holds its row. */
  lemma InsertStep(c: Catalog, ps: seq<Prepared>, i: nat)
    requires i < |ps| && Ingest(c, ps[..i]).1.Completed?
    requires Decide(Ingest(c, ps[..i]).0, ps[i]).Insert?
    ensures ps[i].id in Ingest(c, ps[..i + 1]).0 && Ingest(c, ps[..i + 1]).0[ps[i].id] == ps[i].game.value
  {
    var p := ps[i];
    var d := Ingest(c, ps[..i]).0;
    assert ps[..i + 1] == ps[..i] + [p];
    IngestConcat(c, ps[..i], [p]);
    assert Ingest(d, [p]).0 == Ingest(d[p.id := p.game.value], []).0;
  }

  /** What a completed prefix left is kept by the whole batch. */
  lemma PrefixExtends(c: Catalog, ps: seq<Prepared>, j: nat)
    requires j <= |ps| && Ingest(c, ps[..j]).1.Completed?
    ensures Extends(Ingest(c, ps[..j]).0, Ingest(c, ps).0)
  {
    assert ps == ps[..j] + ps[j..];
    IngestConcat(c, ps[..j], ps[j..]);
  }

  /** A record skipped against a catalogue is skipped against any catalogue extending it. */
  lemma SkipMonotone(c: Catalog, d: Catalog, p: Prepared)
    requires Extends(c, d) && Decide(c, p).Skip?
    ensures Decide(d, p).Skip?
  {
    if p.id !in c {
      var k :| k in c && c[k].title == p.title.text;
      assert k in d && d[k].title == p.title.text;
    }
  }

  /** Loading the same batch a second time changes nothing and ends the same way: every record
      that was processed is now skipped, and the one that raised raises again. */
  lemma {:induction false} IngestIdempotent(c: Catalog, ps: seq<Prepared>)
    ensures Ingest(Ingest(c, ps).0, ps) == Ingest(c, ps)
    decreases |ps|
  {
    if |ps| > 0 {
      var d := Ingest(c, ps).0;
      var p := ps[0];
      match Decide(c, p)
      case Abort =>
      case Skip =>
        SkipMonotone(c, d, p);
        IngestIdempotent(c, ps[1..]);
      case Insert(g) =>
        var c' := c[p.id := g];
        assert Extends(c', d);
        IngestIdempotent(c', ps[1..]);
    }
  }

  /** After a batch that completed, running it against any catalogue that kept its result
      inserts nothing. */
  lemma {:induction false} CompletedIsSettled(c: Catalog, ps: seq<Prepared>, d: Catalog)
    requires Ingest(c, ps).1.Completed?
    requires Extends(Ingest(c, ps).0, d)
    ensures Ingest(d, ps) == (d, Completed)
    decreases |ps|
  {
    if |ps| > 0 {
      var p := ps[0];
      match Decide(c, p)
      case Abort =>
      case Skip =>
        SkipMonotone(c, d, p);
        CompletedIsSettled(c, ps[1..], d);
      case Insert(g) =>
        var c' := c[p.id := g];
        assert p.id in d;
        CompletedIsSettled(c', ps[1..], d);
    }
  }

  /** Titles stay pairwise distinct: a record is inserted only when its title is free. */
  lemma {:induction false} IngestKeepsDistinctTitles(c: Catalog, ps: seq<Prepared>)
    requires DistinctTitles(c)
    requires forall i :: 0 <= i < |ps| ==> Coherent(ps[i])
    ensures DistinctTitles(Ingest(c, ps).0)
    decreases |ps|
  {
    if |ps| > 0 {
      var p := ps[0];
      assert Coherent(p);
      match Decide(c, p)
      case Abort =>
      case Skip =>
        IngestKeepsDistinctTitles(c, ps[1..]);
      case Insert(g) =>
        var c' := c[p.id := g];
        forall a, b | a in c' && b in c' && a != b
          ensures c'[a].title != c'[b].title
        {
          if a == p.id {
            assert !(b in c && c[b].title == g.title);
          } else if b == p.id {
            assert !(a in c && c[a].title == g.title);
          }
        }
        IngestKeepsDistinctTitles(c', ps[1..]);
    }
  }

  /** Every game a batch adds is one of its coherent records' rows: unrated, under its id. */
  lemma NewGamesUnrated(c: Catalog, ps: seq<Prepared>)
    requires forall i :: 0 <= i < |ps| ==> Coherent(ps[i])
    ensures forall k :: k in Ingest(c, ps).0 && k !in c ==> Ingest(c, ps).0[k].IsUnrated()
  {
    var d := Ingest(c, ps).0;
    NewKeysFromRecords(c, ps);
    forall k | k in d && k !in c
      ensures d[k].IsUnrated()
    {
      var i :| 0 <= i < |ps| && ps[i].Ready? && ps[i].id == k && ps[i].game == Some(d[k]);
      assert Coherent(ps[i]);
    }
  }

  // ----- integers and JSON values as Python renders them --------------------------------------

  /** `str(n)` for a natural number. */
  function NatToString(n: nat): (s: string)
    ensures |s| > 0 && forall i :: 0 <= i < |s| ==> IsDigit(s[i])
    ensures DigitsValue(s) == n
    ensures s[0] == '0' ==> n == 0
    decreases n
  {
    if n < 10 then [Digit(n)]
    else
      var front := NatToString(n / 10);
      var s := front + [Digit(n % 10)];
      assert s[..|s| - 1] == front;
      s
  }

  /** The value of a string of decimal digits. */
  function DigitsValue(s: string): nat
    requires forall i :: 0 <= i < |s| ==> IsDigit(s[i])
  {
    if |s| == 0 then 0 else 10 * DigitsValue(s[..|s| - 1]) + DigitValue(s[|s| - 1])
  }

  /** `str(i)` for any integer. */
  function IntToString(i: int): (s: string)
    ensures |s| > 0
    ensures i < 0 <==> s[0] == '-'
    ensures i >= 0 ==> (forall k :: 0 <= k < |s| ==> IsDigit(s[k])) && DigitsValue(s) == i
    ensures i < 0 ==> |s| > 1 && (forall k :: 0 <= k < |s| - 1 ==> IsDigit(s[1..][k])) && DigitsValue(s[1..]) == -i
    ensures i >= 0 && s[0] == '0' ==> i == 0
    ensures i < 0 ==> s[1] != '0'
  {
    if i < 0 then
      var digits := NatToString(-i);
      assert ("-" + digits)[1..] == digits;
      "-" + digits
    else NatToString(i)
  }

  /** Distinct integers render differently, so numeric ids never collide as keys. */
  lemma IntToStringInjective(a: int, b: int)
    requires IntToString(a) == IntToString(b)
    ensures a == b
  {
    var s := IntToString(a);
    if a < 0 {
      assert b < 0;
      assert DigitsValue(s[1..]) == -a == -b;
    } else {
      assert b >= 0;
      assert DigitsValue(s) == a == b;
    }
  }

  /** A JSON scalar as `json.loads` returns it. */
  datatype JsonValue = JNull | JBool(b: bool) | JInt(i: int) | JStr(s: string)

  /** Python truthiness of the value. */
  predicate Truthy(v: JsonValue) {
    match v
    case JNull => false
    case JBool(b) => b
    case JInt(i) => i != 0
    case JStr(s) => s != []
  }

  /** `str(v)`, which is also what a character column stores for a non-string value. */
  function Render(v: JsonValue): (s: string)
    ensures v.JStr? ==> s == v.s
    ensures v.JInt? ==> s == IntToString(v.i)
    ensures v.JNull? ==> s == "None"
    ensures v.JBool? ==> s == (if v.b then "True" else "False")
  {
    match v
    case JNull => "None"
    case JBool(b) => if b then "True" else "False"
    case JInt(i) => IntToString(i)
    case JStr(s) => s
  }

  // ----- the XML feed -------------------------------------------------------------------------

  /** A `<game>` element: for each child tag, the text of the first such child (`None` for an
      element with no text). A tag that is not a key has no child element. */
  type XmlElement = map<string, Option<string>>

  /** The children `load_xml` calls `.text` on; a missing one raises `AttributeError`. */
  predicate HasXmlFields(e: XmlElement) {
    && "release_date" in e && "id" in e && "title" in e && "platform" in e && "genre" in e
    && "developer" in e && "publisher" in e && "short_description" in e
    && "freetogame_profile_url" in e && "game_url" in e && "thumbnail" in e
  }

  /** The release date kept for a record: its text when `is_valid_date` accepts it, the
      fallback otherwise; the row holds the date Django parses from that text. */
  lemma KeptDate(raw: Option<string>)
    ensures var t := ChooseDateText(raw);
            && (raw.Some? && IsValidDate(raw.value) ==>
                  StoredDate(t) == (if ' ' in raw.value then None else StrptimeFields(raw.value)))
            && (!(raw.Some? && IsValidDate(raw.value)) ==> StoredDate(t) == Some(FallbackDate))
  {
    FallbackIsValid();
  }

  /** One `<game>` element of `load_xml`, prepared. */
  function PrepareXml(prefix: string, e: XmlElement): (p: Prepared)
    ensures p.Malformed? <==> !HasXmlFields(e) || e["id"].None?
    ensures p.Ready? ==> p.id == prefix + e["id"].value && StartsWith(p.id, prefix)
    ensures p.Ready? ==> (p.title.TitleNull? <==> e["title"].None?)
                         && (e["title"].Some? ==> p.title == Title(e["title"].value))
    ensures p.Ready? && p.game.Some? ==>
              var g := p.game.value;
              && e["platform"] == Some(g.platform) && e["genre"] == Some(g.genre)
              && e["developer"] == Some(g.developer) && e["publisher"] == Some(g.publisher)
              && e["short_description"] == Some(g.description)
              && e["freetogame_profile_url"] == Some(g.profileUrl)
              && e["game_url"] == Some(g.gameUrl) && e["thumbnail"] == Some(g.thumbnail)
              && IsCalendarDate(g.releaseDate)
              && (e["release_date"].Some? && IsValidDate(e["release_date"].value) ==>
                    Some(g.releaseDate) == StrptimeFields(e["release_date"].value))
              && (!(e["release_date"].Some? && IsValidDate(e["release_date"].value)) ==>
                    g.releaseDate == FallbackDate)
    ensures p.Ready? ==>
              (p.game.Some? <==>
                 && e["title"].Some? && e["platform"].Some? && e["genre"].Some? && e["developer"].Some?
                 && e["publisher"].Some? && e["short_description"].Some?
                 && e["freetogame_profile_url"].Some? && e["game_url"].Some? && e["thumbnail"].Some?
                 && ' ' !in ChooseDateText(e["release_date"]))
    ensures Coherent(p)
  {
    if !HasXmlFields(e) || e["id"].None? then Malformed
    else
      var dateText := ChooseDateText(e["release_date"]);
      KeptDate(e["release_date"]);
      var title := if e["title"].None? then TitleNull else Title(e["title"].value);
      var date := StoredDate(dateText);
      var game :=
        if && e["title"].Some? && e["platform"].Some? && e["genre"].Some? && e["developer"].Some?
           && e["publisher"].Some? && date.Some? && e["short_description"].Some?
           && e["freetogame_profile_url"].Some? && e["game_url"].Some? && e["thumbnail"].Some?
        then Some(Game(e["title"].value, e["platform"].value, e["genre"].value, e["publisher"].value,
                       e["developer"].value, date.value, e["short_description"].value, 0, 0,
                       e["freetogame_profile_url"].value, e["game_url"].value, e["thumbnail"].value))
        else None;
      Ready(prefix + e["id"].value, title, game)
  }

  // ----- the JSON feeds -----------------------------------------------------------------------

  /** An element of the top-level JSON list: an object, or anything else (indexing it by a
      string raises). */
  datatype JsonItem = JObject(fields: map<string, JsonValue>) | JNotObject

  /** `game_data.get(key)`. */
  function Get(f: map<string, JsonValue>, key: string): JsonValue {
    if key in f then f[key] else JNull
  }

  /** The value a character column receives from `game_data.get(key)`: `None` for null. */
  function Column(f: map<string, JsonValue>, key: string): Option<string> {
    if Get(f, key).JNull? then None else Some(Render(Get(f, key)))
  }

  /** `game_data.get('freetogame_profile_url') or game_data.get('profile_url')`. */
  function ProfileUrlValue(f: map<string, JsonValue>): (v: JsonValue)
    ensures Truthy(Get(f, "freetogame_profile_url")) ==> v == Get(f, "freetogame_profile_url")
    ensures !Truthy(Get(f, "freetogame_profile_url")) ==> v == Get(f, "profile_url")
  {
    var first := Get(f, "freetogame_profile_url");
    if Truthy(first) then first else Get(f, "profile_url")
  }

  /** A release date `is_valid_date` cannot even be called on: `strptime` raises `TypeError`
      for a non-string, which the `except ValueError` does not catch. */
  predicate BadDateType(f: map<string, JsonValue>) {
    "release_date" in f && (f["release_date"].JBool? || f["release_date"].JInt?)
  }

  /** The release date text `is_valid_date` is given: a string value, or nothing to check. */
  function RawJsonDate(f: map<string, JsonValue>): Option<string> {
    if Get(f, "release_date").JStr? then Some(Get(f, "release_date").s) else None
  }

  /** One element of `load_json`'s list, prepared. */
  function PrepareJson(prefix: string, item: JsonItem): (p: Prepared)
    ensures p.Malformed? <==> item.JNotObject? || "id" !in item.fields || BadDateType(item.fields)
    ensures p.Ready? ==> p.id == prefix + Render(item.fields["id"]) && StartsWith(p.id, prefix)
    ensures p.Ready? ==> (p.title.TitleMissing? <==> "title" !in item.fields)
                         && (p.title.TitleNull? <==> "title" in item.fields && item.fields["title"].JNull?)
    ensures p.Ready? && p.game.Some? ==>
              var f := item.fields;
              var g := p.game.value;
              && Column(f, "platform") == Some(g.platform) && Column(f, "genre") == Some(g.genre)
              && Column(f, "developer") == Some(g.developer) && Column(f, "publisher") == Some(g.publisher)
              && Column(f, "short_description") == Some(g.description)
              && Column(f, "game_url") == Some(g.gameUrl) && Column(f, "thumbnail") == Some(g.thumbnail)
              && (Truthy(Get(f, "freetogame_profile_url")) ==> g.profileUrl == Render(Get(f, "freetogame_profile_url")))
              && (!Truthy(Get(f, "freetogame_profile_url")) ==> Some(g.profileUrl) == Column(f, "profile_url"))
              && (Get(f, "release_date").JStr? && IsValidDate(Get(f, "release_date").s) ==>
                    Some(g.releaseDate) == StrptimeFields(Get(f, "release_date").s))
              && (!(Get(f, "release_date").JStr? && IsValidDate(Get(f, "release_date").s)) ==>
                    g.releaseDate == FallbackDate)
    ensures p.Ready? ==>
              var f := item.fields;
              (p.game.Some? <==>
                 && p.title.Title? && Column(f, "platform").Some? && Column(f, "genre").Some?
                 && Column(f, "developer").Some? && Column(f, "publisher").Some?
                 && Column(f, "short_description").Some? && !ProfileUrlValue(f).JNull?
                 && Column(f, "game_url").Some? && Column(f, "thumbnail").Some?
                 && ' ' !in ChooseDateText(RawJsonDate(f)))
    ensures Coherent(p)
  {
    match item
    case JNotObject => Malformed
    case JObject(f) =>
      if "id" !in f || BadDateType(f) then Malformed
      else
        var raw := RawJsonDate(f);
        var dateText := ChooseDateText(raw);
        KeptDate(raw);
        var title := if "title" !in f then TitleMissing
                     else if f["title"].JNull? then TitleNull
                     else Title(Render(f["title"]));
        var date := StoredDate(dateText);
        var profile := ProfileUrlValue(f);
        var game :=
          if && title.Title? && Column(f, "platform").Some? && Column(f, "genre").Some?
             && Column(f, "developer").Some? && Column(f, "publisher").Some? && date.Some?
             && Column(f, "short_description").Some? && !profile.JNull?
             && Column(f, "game_url").Some? && Column(f, "thumbnail").Some?
          then Some(Game(title.text, Column(f, "platform").value, Column(f, "genre").value,
                         Column(f, "publisher").value, Column(f, "developer").value, date.value,
                         Column(f, "short_description").value, 0, 0, Render(profile),
                         Column(f, "game_url").value, Column(f, "thumbnail").value))
          else None;
        Ready(prefix + Render(f["id"]), title, game)
  }

  function PrepareXmlAll(prefix: string, es: seq<XmlElement>): (ps: seq<Prepared>)
    ensures |ps| == |es| && forall i :: 0 <= i < |es| ==> ps[i] == PrepareXml(prefix, es[i])
  {
    seq(|es|, i requires 0 <= i < |es| => PrepareXml(prefix, es[i]))
  }

  function PrepareJsonAll(prefix: string, items: seq<JsonItem>): (ps: seq<Prepared>)
    ensures |ps| == |items| && forall i :: 0 <= i < |items| ==> ps[i] == PrepareJson(prefix, items[i])
  {
    seq(|items|, i requires 0 <= i < |items| => PrepareJson(prefix, items[i]))
  }

  // ----- load_games ----------------------------------------------------------------------------

  /** The body `urlopen` returned, as each parser would read it: `None` when `ET.fromstring`
      (respectively `json.loads`, or iterating its result) raises. A top-level JSON value that
      is not a list is iterated as its keys or characters, each a `JNotObject`. */
  datatype Download = FetchFailed | Fetched(asXml: Option<seq<XmlElement>>, asJson: Option<seq<JsonItem>>)

  /** What one `load_games` call did. */
  datatype Report = FetchError | UnknownFormat | Unparseable | Ran(outcome: Outcome)

  /** `load_games(formato, url, prefix)`, with the download as a parameter. */
  function LoadGames(c: Catalog, format: string, download: Download, prefix: string): (r: (Catalog, Report))
    ensures Extends(c, r.0)
    ensures !r.1.Ran? ==> r.0 == c
    ensures format != "XML" && format != "JSON" ==> r.1 == FetchError || r.1 == UnknownFormat
    ensures download.FetchFailed? <==> r.1 == FetchError
    ensures forall k :: k in r.0 && k !in c ==> StartsWith(k, prefix) && r.0[k].IsUnrated()
    ensures download.Fetched? && format == "XML" ==>
              match download.asXml
              case None => r == (c, Unparseable)
              case Some(es) => r == (Ingest(c, PrepareXmlAll(prefix, es)).0, Ran(Ingest(c, PrepareXmlAll(prefix, es)).1))
    ensures download.Fetched? && format == "JSON" ==>
              match download.asJson
              case None => r == (c, Unparseable)
              case Some(items) =>
                r == (Ingest(c, PrepareJsonAll(prefix, items)).0, Ran(Ingest(c, PrepareJsonAll(prefix, items)).1))
  {
    match download
    case FetchFailed => (c, FetchError)
    case Fetched(asXml, asJson) =>
      if format == "XML" then
        match asXml
        case None => (c, Unparseable)
        case Some(es) =>
          var ps := PrepareXmlAll(prefix, es);
          var r := Ingest(c, ps);
          FeedKeys(c, ps, prefix);
          (r.0, Ran(r.1))
      else if format == "JSON" then
        match asJson
        case None => (c, Unparseable)
        case Some(items) =>
          var ps := PrepareJsonAll(prefix, items);
          var r := Ingest(c, ps);
          FeedKeys(c, ps, prefix);
          (r.0, Ran(r.1))
      else (c, UnknownFormat)
  }

  /** Games added from prepared records that all carry the prefix are prefixed and unrated. */
  lemma FeedKeys(c: Catalog, ps: seq<Prepared>, prefix: string)
    requires forall i :: 0 <= i < |ps| ==> Coherent(ps[i]) && (ps[i].Ready? ==> StartsWith(ps[i].id, prefix))
    ensures forall k :: k in Ingest(c, ps).0 && k !in c ==>
              StartsWith(k, prefix) && Ingest(c, ps).0[k].IsUnrated()
  {
    var d := Ingest(c, ps).0;
    NewKeysFromRecords(c, ps);
    forall k | k in d && k !in c
      ensures StartsWith(k, prefix) && d[k].IsUnrated()
    {
      var i :| 0 <= i < |ps| && ps[i].Ready? && ps[i].id == k && ps[i].game == Some(d[k]);
      assert Coherent(ps[i]);
    }
  }

  /** Calling `load_games` again with the same download changes nothing and reports the same. */
  lemma LoadGamesIdempotent(c: Catalog, format: string, download: Download, prefix: string)
    ensures var (d, report) := LoadGames(c, format, download, prefix);
            LoadGames(d, format, download, prefix) == (d, report)
  {
    if download.Fetched? {
      if format == "XML" && download.asXml.Some? {
        IngestIdempotent(c, PrepareXmlAll(prefix, download.asXml.value));
      } else if format == "JSON" && download.asJson.Some? {
        IngestIdempotent(c, PrepareJsonAll(prefix, download.asJson.value));
      }
    }
  }

  /** A `load_games` call that completed is settled: run again on any catalogue that kept its
      result, it inserts nothing. */
  lemma LoadGamesSettled(c: Catalog, format: string, download: Download, prefix: string, d: Catalog)
    requires NoAbort(LoadGames(c, format, download, prefix).1)
    requires Extends(LoadGames(c, format, download, prefix).0, d)
    ensures LoadGames(d, format, download, prefix).0 == d
  {
    if download.Fetched? {
      if format == "XML" && download.asXml.Some? {
        CompletedIsSettled(c, PrepareXmlAll(prefix, download.asXml.value), d);
      } else if format == "JSON" && download.asJson.Some? {
        CompletedIsSettled(c, PrepareJsonAll(prefix, download.asJson.value), d);
      }
    }
  }

  /** The three feeds `main` loads on every request, in order. */
  function RefreshCatalog(c: Catalog, listado1: Download, freeToGame: Download, mmoBomb: Download)
    : (r: (Catalog, seq<Report>))
    ensures Extends(c, r.0) && |r.1| == 3
    ensures forall k :: k in r.0 && k !in c ==>
              r.0[k].IsUnrated() && (StartsWith(k, "LIS1-") || StartsWith(k, "LIS2-") || StartsWith(k, "LIS3-"))
    ensures var first := LoadGames(c, "XML", listado1, "LIS1-");
            var second := LoadGames(first.0, "JSON", freeToGame, "LIS2-");
            var third := LoadGames(second.0, "JSON", mmoBomb, "LIS3-");
            && r.1 == [first.1, second.1, third.1]
            && Extends(first.0, r.0) && Extends(second.0, r.0) && r.0 == third.0
  {
    var (c1, r1) := LoadGames(c, "XML", listado1, "LIS1-");
    var (c2, r2) := LoadGames(c1, "JSON", freeToGame, "LIS2-");
    var (c3, r3) := LoadGames(c2, "JSON", mmoBomb, "LIS3-");
    (c3, [r1, r2, r3])
  }

  predicate NoAbort(r: Report) {
    !(r.Ran? && r.outcome.Aborted?)
  }

  /** When no feed raised midway, loading the three feeds again leaves the catalogue as it is.
      (After a batch that raised, a second refresh can go further: a title another feed added
      in the meantime turns the failing record into a skip.) */
  lemma RefreshSettled(c: Catalog, listado1: Download, freeToGame: Download, mmoBomb: Download)
    requires var reports := RefreshCatalog(c, listado1, freeToGame, mmoBomb).1;
             NoAbort(reports[0]) && NoAbort(reports[1]) && NoAbort(reports[2])
    ensures var d := RefreshCatalog(c, listado1, freeToGame, mmoBomb).0;
            RefreshCatalog(d, listado1, freeToGame, mmoBomb).0 == d
  {
    var (c1, r1) := LoadGames(c, "XML", listado1, "LIS1-");
    var (c2, r2) := LoadGames(c1, "JSON", freeToGame, "LIS2-");
    var (c3, r3) := LoadGames(c2, "JSON", mmoBomb, "LIS3-");
    assert RefreshCatalog(c, listado1, freeToGame, mmoBomb).1 == [r1, r2, r3];
    assert NoAbort(r1) && NoAbort(r2) && NoAbort(r3);
    LoadGamesSettled(c, "XML", listado1, "LIS1-", c3);
    LoadGamesSettled(c1, "JSON", freeToGame, "LIS2-", c3);
    LoadGamesSettled(c2, "JSON", mmoBomb, "LIS3-", c3);
  }
}

=== FILE: ledger.dfy ===
/** The rating and comment branch of `game_detail` (game_views.py): validating the submitted
    form, editing or creating the author's rating comment, and maintaining the game's running
    `average_rating` and `vote_count`. */
module Ledger {
  import opened Common
  import opened Text
  import opened Models

  function Abs(x: int): nat { if x < 0 then -x else x }

  /** Python's `round(Decimal, n)`: the integer nearest to `num / den`, ties to the even
      neighbour (`RoundHalfEvenNearest`). Applied to a total in tenths and a vote count it gives
      the new average in tenths exactly as `round(total_rating / vote_count, 1)` does. */
  function RoundHalfEven(num: int, den: int): (q: int)
    requires den != 0
  {
    if den > 0 then RoundPositive(num, den)
    else
      var q := RoundPositive(-num, -den);
      assert -num - q * -den == -(num - q * den);
      q
  }

  function RoundPositive(num: int, den: int): (q: int)
    requires den > 0
    ensures 2 * Abs(num - q * den) <= den
    ensures 2 * Abs(num - q * den) == den ==> q % 2 == 0
  {
    var q := num / den;
    var r := num % den;
    assert num - q * den == r;
    assert num - (q + 1) * den == r - den;
    if 2 * r < den then q
    else if 2 * r > den then q + 1
    else if q % 2 == 0 then q
    else q + 1
  }

  /** The rounded value is at most half a step from the exact quotient, and an exact tie goes to
      the even neighbour. The fact lives in a lemma rather than in the function's contract so
      that its nonlinear arithmetic stays out of proofs that do not need it. */
  lemma RoundHalfEvenNearest(num: int, den: int)
    requires den != 0
    ensures var q := RoundHalfEven(num, den);
            2 * Abs(num - q * den) <= Abs(den) && (2 * Abs(num - q * den) == Abs(den) ==> q % 2 == 0)
  {
    if den < 0 {
      var q := RoundPositive(-num, -den);
      assert RoundHalfEven(num, den) == q;
      assert -num - q * -den == -(num - q * den);
    }
  }

  /** The two properties of `RoundHalfEven` single out one integer: rounding is a function of
      the exact quotient alone. */
  lemma RoundHalfEvenUnique(num: int, den: int, q: int)
    requires den != 0
    requires 2 * Abs(num - q * den) <= Abs(den)
    requires 2 * Abs(num - q * den) == Abs(den) ==> q % 2 == 0
    ensures q == RoundHalfEven(num, den)
  {
    var p := RoundHalfEven(num, den);
    RoundHalfEvenNearest(num, den);
    NearestUniqueSigned(num, den, p, q);
  }

  lemma NearestUniqueSigned(num: int, den: int, p: int, q: int)
    requires den != 0
    requires 2 * Abs(num - p * den) <= Abs(den) && (2 * Abs(num - p * den) == Abs(den) ==> p % 2 == 0)
    requires 2 * Abs(num - q * den) <= Abs(den) && (2 * Abs(num - q * den) == Abs(den) ==> q % 2 == 0)
    ensures p == q
  {
    if den > 0 {
      NearestUnique(num, den, p, q);
    } else {
      assert -num - p * -den == -(num - p * den);
      assert -num - q * -den == -(num - q * den);
      NearestUnique(-num, -den, p, q);
    }
  }

  lemma NearestUnique(num: int, den: int, p: int, q: int)
    requires den > 0
    requires 2 * Abs(num - p * den) <= den && (2 * Abs(num - p * den) == den ==> p % 2 == 0)
    requires 2 * Abs(num - q * den) <= den && (2 * Abs(num - q * den) == den ==> q % 2 == 0)
    ensures p == q
  {
    if p != q {
      var lo := if p < q then p else q;
      var hi := if p < q then q else p;
      var a := num - lo * den;
      var b := num - hi * den;
      Spread(lo, hi, den, num);
      TiesOnBothSides(a, b, den);
      OneStep(hi - lo, den);
      assert false;
    }
  }

  /** Two multiples of `den` at distinct integers are at least `den` apart. */
  lemma Spread(lo: int, hi: int, den: int, num: int)
    requires lo < hi && den > 0
    ensures (num - lo * den) - (num - hi * den) == (hi - lo) * den >= den
  {
    var k := hi - lo;
    assert hi * den == lo * den + k * den;
    assert k * den == (k - 1) * den + den;
    assert (k - 1) * den >= 0;
  }

  lemma TiesOnBothSides(a: int, b: int, den: int)
    requires 2 * Abs(a) <= den && 2 * Abs(b) <= den && a - b >= den
    ensures 2 * Abs(a) == den && 2 * Abs(b) == den && a - b == den
  {
  }

  lemma OneStep(k: int, den: int)
    requires den > 0 && k * den == den
    ensures k == 1
  {
    MultiplesOutsideOne(k, den);
  }

  lemma MultiplesOutsideOne(k: int, den: int)
    requires den > 0
    ensures k >= 2 ==> k * den >= 2 * den
    ensures k <= 0 ==> k * den <= 0
  {
    if k >= 2 {
      assert k * den == (k - 2) * den + 2 * den;
      assert (k - 2) * den >= 0;
    }
  }

  // ----- authors ---------------------------------------------------------------------------

  /** `str(request.user)`: the author string the view looks an existing rating up by. For an
      anonymous visitor Django renders it as "AnonymousUser". */
  function LookupKey(who: Principal): string {
    match who
    case Anonymous => "AnonymousUser"
    case Member(name) => name
  }

  /** The author a new comment is saved under: the username, or the anonymous label. */
  function StoredAuthor(who: Principal): string {
    match who
    case Anonymous => DefaultAuthor
    case Member(name) => name
  }

  /** A rating-bearing comment: the view filters on `rating__gte=0`. */
  predicate IsRating(c: Comment) {
    c.rating.Some? && c.rating.value >= 0
  }

  predicate IsRatingBy(c: Comment, game: GameId, author: string) {
    c.game == game && c.author == author && IsRating(c)
  }

  /** `Comment.objects.filter(game=..., user=..., rating__gte=0).first()`: the earliest matching
      row, rows being ordered by primary key. */
  function FindRating(cs: seq<Comment>, game: GameId, author: string): (r: Option<nat>)
    ensures r.Some? ==> r.value < |cs| && IsRatingBy(cs[r.value], game, author)
    ensures r.Some? ==> forall j :: 0 <= j < r.value ==> !IsRatingBy(cs[j], game, author)
    ensures r.None? <==> forall j :: 0 <= j < |cs| ==> !IsRatingBy(cs[j], game, author)
    decreases |cs|
  {
    if |cs| == 0 then None
    else if IsRatingBy(cs[0], game, author) then Some(0)
    else
      match FindRating(cs[1..], game, author)
      case None =>
        assert forall j :: 1 <= j < |cs| ==> cs[j] == cs[1..][j - 1];
        None
      case Some(i) =>
        assert forall j :: 1 <= j <= i ==> cs[j] == cs[1..][j - 1];
        Some(i + 1)
  }

  // ----- the running average ----------------------------------------------------------------

  /** The new `average_rating`, in tenths, from the rebuilt total (in tenths) and the vote count
      it is divided by. A count of one takes the submitted rating itself; a count of zero is a
      `Decimal` division by zero, which raises (`None`). */
  function RecomputeAverage(totalTenths: int, count: int, rating: int): (r: Option<int>)
    ensures r.None? <==> count == 0
    ensures count == 1 ==> r == Some(10 * rating)
  {
    if count == 1 then Some(if rating == 0 then 0 else 10 * rating)
    else if count == 0 then None
    else Some(RoundHalfEven(totalTenths, count))
  }

  /** For any other count the new average is the total over the count rounded half-to-even. */
  lemma RecomputeAverageRounds(totalTenths: int, count: int, rating: int)
    requires count != 0 && count != 1
    ensures var a := RecomputeAverage(totalTenths, count, rating).value;
            2 * Abs(totalTenths - a * count) <= Abs(count)
            && (2 * Abs(totalTenths - a * count) == Abs(count) ==> a % 2 == 0)
  {
    RoundHalfEvenNearest(totalTenths, count);
  }

  // ----- the request --------------------------------------------------------------------------

  /** The `rating` field as posted: left blank, an integer, or text `int()` cannot read. */
  datatype RatingField = Blank | Number(value: int) | NotANumber

  /** A GET of the detail page, or a POST carrying (or not) the `rate_comment` key. */
  datatype DetailRequest = View | Post(rateComment: bool, rating: RatingField, text: string)

  /** The HTTP outcome: 200, 401, 404, or an unhandled exception (500). */
  datatype Status = Ok | Unauthorized | NotFound | ServerError

  /** `RatingCommentForm.is_valid()` and its `cleaned_data`: the rating must be blank or an
      integer in 0..5 (forms.py), the text is stripped and may not hold a NUL character. */
  function CleanForm(rating: RatingField, text: string): (r: Option<(Option<int>, string)>)
    ensures r.Some? <==> !rating.NotANumber? && (rating.Number? ==> 0 <= rating.value <= 5)
                          && !HasNullCharacter(Strip(text))
    ensures r.Some? ==> r.value.1 == Strip(text)
                        && (r.value.0.Some? <==> rating.Number?)
                        && (rating.Number? ==> r.value.0.value == rating.value)
  {
    match rating
    case NotANumber => None
    case Number(v) =>
      if v < 0 || v > 5 || HasNullCharacter(Strip(text)) then None else Some((Some(v), Strip(text)))
    case Blank =>
      if HasNullCharacter(Strip(text)) then None else Some((None, Strip(text)))
  }

  /** Everything `Submit` leaves alone: likes, follows, the set of games, every other game, and
      every column of the posted game but its average and vote count. */
  predicate Framed(s: Store, t: Store, game: GameId) {
    && t.likes == s.likes
    && t.follows == s.follows
    && t.games.Keys == s.games.Keys
    && (forall g :: g in s.games && g != game ==> t.games[g] == s.games[g])
    && (game in s.games ==>
          t.games[game] == s.games[game].(averageTenths := t.games[game].averageTenths,
                                          voteCount := t.games[game].voteCount))
  }

  /** The re-rating path: comment `i` is the author's rating comment. The total is rebuilt
      from the stored average, the old rating swapped for the new one, and divided by the
      unchanged vote count; the comment's rating and text are overwritten in place. */
  function EditRating(s: Store, game: GameId, i: nat, v: int, text: string): (r: (Store, Status))
    requires game in s.games && i < |s.comments|
    requires IsRatingBy(s.comments[i], game, s.comments[i].author) && 0 <= v <= 5
    ensures r.1 == Ok || r.1 == ServerError
    ensures r.1 == ServerError <==> s.games[game].voteCount == 0
    ensures r.1 == ServerError ==> r.0 == s
    ensures Framed(s, r.0, game)
    ensures r.1 == Ok ==>
              && r.0.games[game].voteCount == s.games[game].voteCount
              && r.0.comments == s.comments[i := s.comments[i].(rating := Some(v), text := text)]
  {
    var g := s.games[game];
    var previous := s.comments[i].rating.value;
    match RecomputeAverage(g.averageTenths * g.voteCount - 10 * previous + 10 * v, g.voteCount, v)
    case None => (s, ServerError)
    case Some(avg) =>
      (s.(games := s.games[game := g.(averageTenths := avg)],
          comments := s.comments[i := s.comments[i].(rating := Some(v), text := text)]), Ok)
  }

  /** The first-rating path: one more vote, the total rebuilt from the stored average over the
      previous count plus the new rating, divided by the new count; a new comment is created. */
  function AddRating(s: Store, game: GameId, who: Principal, v: int, text: string): (r: (Store, Status))
    requires game in s.games && 0 <= v <= 5
    ensures r.1 == Ok || r.1 == ServerError
    ensures r.1 == ServerError <==> s.games[game].voteCount == -1
    ensures r.1 == ServerError ==> r.0 == s
    ensures Framed(s, r.0, game)
    ensures r.1 == Ok ==>
              && r.0.games[game].voteCount == s.games[game].voteCount + 1
              && r.0.comments == s.comments + [Comment(game, StoredAuthor(who), text, Some(v))]
  {
    var g := s.games[game];
    var n := g.voteCount + 1;
    // the view multiplies by `vote_count - 1` after the increment, the count before it
    match RecomputeAverage(g.averageTenths * g.voteCount + 10 * v, n, v)
    case None => (s, ServerError)
    case Some(avg) =>
      (s.(games := s.games[game := g.(averageTenths := avg, voteCount := n)],
          comments := s.comments + [Comment(game, StoredAuthor(who), text, Some(v))]), Ok)
  }

  /** The valid-form part of the POST branch, for a game that exists. */
  function Submit(s: Store, game: GameId, who: Principal, rating: Option<int>, text: string): (r: (Store, Status))
    requires game in s.games
    requires rating.Some? ==> 0 <= rating.value <= 5
    ensures r.1 == Ok || r.1 == Unauthorized || r.1 == ServerError
    ensures r.1 != Ok ==> r.0 == s
    ensures r.1 == Unauthorized <==> rating.None? && AllSpace(text)
    ensures Framed(s, r.0, game)
    ensures r.1 == Ok && rating.None? ==>
              r.0.games == s.games
              && r.0.comments == s.comments + [Comment(game, StoredAuthor(who), text, None)]
    ensures r.1 == Ok && rating.Some? ==>
              r.0.games[game].voteCount == s.games[game].voteCount + (|r.0.comments| - |s.comments|)
    ensures r.1 == Ok ==> |s.comments| <= |r.0.comments| <= |s.comments| + 1
    ensures r.1 == Ok && rating.Some? ==>
              match FindRating(s.comments, game, LookupKey(who))
              case Some(i) => r.0.comments == s.comments[i := s.comments[i].(rating := rating, text := text)]
              case None => r.0.comments == s.comments + [Comment(game, StoredAuthor(who), text, rating)]
  {
    StripEmptyIffAllSpace(text);
    if rating.None? then
      if Strip(text) == [] then (s, Unauthorized)
      else (s.(comments := s.comments + [Comment(game, StoredAuthor(who), text, None)]), Ok)
    else SubmitRating(s, game, who, rating.value, text)
  }

  /** The rating branch of `Submit`: edit the author's rating comment when the lookup finds
      one, add a vote and a comment otherwise. */
  function SubmitRating(s: Store, game: GameId, who: Principal, v: int, text: string): (r: (Store, Status))
    requires game in s.games && 0 <= v <= 5
    ensures r.1 == Ok || r.1 == ServerError
    ensures r.1 != Ok ==> r.0 == s
    ensures Framed(s, r.0, game)
    ensures r.1 == Ok ==>
              && r.0.games[game].voteCount == s.games[game].voteCount + (|r.0.comments| - |s.comments|)
              && |s.comments| <= |r.0.comments| <= |s.comments| + 1
    ensures r.1 == Ok ==>
              match FindRating(s.comments, game, LookupKey(who))
              case Some(i) => r.0.comments == s.comments[i := s.comments[i].(rating := Some(v), text := text)]
              case None => r.0.comments == s.comments + [Comment(game, StoredAuthor(who), text, Some(v))]
  {
    match FindRating(s.comments, game, LookupKey(who))
    case Some(i) => EditRating(s, game, i, v, text)
    case None => AddRating(s, game, who, v, text)
  }

  /** `game_detail(request, game_id)` as far as the store and the status code go. */
  function GameDetail(s: Store, game: GameId, who: Principal, req: DetailRequest): (r: (Store, Status))
    ensures r.1 == NotFound <==> game !in s.games
    ensures r.1 != Ok ==> r.0 == s
    ensures game in s.games ==> Framed(s, r.0, game)
    ensures !(req.Post? && req.rateComment) ==> r.0 == s
    ensures game in s.games && !(req.Post? && req.rateComment) ==> r.1 == Ok
    ensures game in s.games && req.Post? && req.rateComment ==>
              match CleanForm(req.rating, req.text)
              case None => r == (s, Unauthorized)
              case Some(f) => r == Submit(s, game, who, f.0, f.1)
  {
    if game !in s.games then (s, NotFound)
    else
      match req
      case View => (s, Ok)
      case Post(rateComment, rating, text) =>
        if !rateComment then (s, Ok)
        else
          match CleanForm(rating, text)
          case None => (s, Unauthorized)
          case Some(cleaned) => Submit(s, game, who, cleaned.0, cleaned.1)
  }

  /** A rating form posted with neither a rating nor any non-blank text is refused with 401 and
      saves nothing, as is one whose fields do not validate. */
  lemma EmptySubmissionRefused(s: Store, game: GameId, who: Principal, rating: RatingField, text: string)
    requires game in s.games
    requires (rating.Blank? && AllSpace(text)) || CleanForm(rating, text).None?
    ensures GameDetail(s, game, who, Post(true, rating, text)) == (s, Unauthorized)
  {
    if CleanForm(rating, text).Some? {
      StripEmptyIffAllSpace(text);
      assert Strip(text) == [];
      assert AllSpace(Strip(text));
    }
  }

  /** A posted rating form is refused with 401 exactly when it does not validate or carries
      neither a rating nor any non-blank text. */
  lemma RefusedExactly(s: Store, game: GameId, who: Principal, rating: RatingField, text: string)
    requires game in s.games
    ensures GameDetail(s, game, who, Post(true, rating, text)).1 == Unauthorized <==>
              (rating.Blank? && AllSpace(text)) || CleanForm(rating, text).None?
  {
    if (rating.Blank? && AllSpace(text)) || CleanForm(rating, text).None? {
      EmptySubmissionRefused(s, game, who, rating, text);
    } else {
      var f := CleanForm(rating, text).value;
      StripEmptyIffAllSpace(text);
      StripEmptyIffAllSpace(f.1);
      StripIdempotent(text);
    }
  }

  // ----- the three kinds of successful submission ------------------------------------------

  /** A first rating by an author counts one more vote and adds one comment carrying the
      rating, the text and the author; the average is the submitted rating when it is the only
      vote and the rounded rebuilt total otherwise. */
  lemma FirstRating(s: Store, game: GameId, who: Principal, v: int, text: string)
    requires game in s.games && 0 <= v <= 5
    requires FindRating(s.comments, game, LookupKey(who)).None?
    requires s.games[game].voteCount != -1
    ensures var (t, status) := Submit(s, game, who, Some(v), text);
            var g := s.games[game];
            && status == Ok
            && t.games[game].voteCount == g.voteCount + 1
            && t.comments == s.comments + [Comment(game, StoredAuthor(who), text, Some(v))]
            && (g.voteCount == 0 ==> t.games[game].averageTenths == 10 * v)
            && (g.voteCount != 0 ==>
                  t.games[game].averageTenths == RoundHalfEven(g.averageTenths * g.voteCount + 10 * v, g.voteCount + 1))
  {
    FirstRatingStored(s, game, who, v, text);
    FirstRatingAverage(s, game, who, v, text);
  }

  lemma FirstRatingStored(s: Store, game: GameId, who: Principal, v: int, text: string)
    requires game in s.games && 0 <= v <= 5
    requires FindRating(s.comments, game, LookupKey(who)).None?
    requires s.games[game].voteCount != -1
    ensures var (t, status) := Submit(s, game, who, Some(v), text);
            && status == Ok
            && t.games[game].voteCount == s.games[game].voteCount + 1
            && t.comments == s.comments + [Comment(game, StoredAuthor(who), text, Some(v))]
  {
    assert Submit(s, game, who, Some(v), text) == AddRating(s, game, who, v, text);
  }

  lemma FirstRatingAverage(s: Store, game: GameId, who: Principal, v: int, text: string)
    requires game in s.games && 0 <= v <= 5
    requires FindRating(s.comments, game, LookupKey(who)).None?
    requires s.games[game].voteCount != -1
    ensures var t := Submit(s, game, who, Some(v), text).0;
            var g := s.games[game];
            && (g.voteCount == 0 ==> t.games[game].averageTenths == 10 * v)
            && (g.voteCount != 0 ==>
                  t.games[game].averageTenths == RoundHalfEven(g.averageTenths * g.voteCount + 10 * v, g.voteCount + 1))
  {
    assert Submit(s, game, who, Some(v), text) == AddRating(s, game, who, v, text);
    AddOutcome(s, game, who, v, text);
  }

  /** The stored average after a first rating, as the rebuilt total divided by the new count. */
  lemma AddOutcome(s: Store, game: GameId, who: Principal, v: int, text: string)
    requires game in s.games && 0 <= v <= 5
    requires s.games[game].voteCount != -1
    ensures var g := s.games[game];
            var total := g.averageTenths * g.voteCount + 10 * v;
            AddRating(s, game, who, v, text).0.games[game].averageTenths == RecomputeAverage(total, g.voteCount + 1, v).value
  {
  }

  /** A new rating by an author who already has a rating comment rewrites that comment's rating
      and text in place, creates no comment and keeps the vote count. */
  lemma ReRating(s: Store, game: GameId, who: Principal, v: int, text: string)
    requires game in s.games && 0 <= v <= 5
    requires FindRating(s.comments, game, LookupKey(who)).Some?
    requires s.games[game].voteCount != 0
    ensures var (t, status) := Submit(s, game, who, Some(v), text);
            var i := FindRating(s.comments, game, LookupKey(who)).value;
            var g := s.games[game];
            var previous := s.comments[i].rating.value;
            && status == Ok
            && t.games[game].voteCount == g.voteCount
            && t.comments == s.comments[i := s.comments[i].(rating := Some(v), text := text)]
            && (g.voteCount == 1 ==> t.games[game].averageTenths == 10 * v)
            && (g.voteCount != 1 ==>
                  t.games[game].averageTenths == RoundHalfEven(g.averageTenths * g.voteCount - 10 * previous + 10 * v, g.voteCount))
  {
    ReRatingStored(s, game, who, v, text);
    ReRatingAverage(s, game, who, v, text);
  }

  lemma ReRatingStored(s: Store, game: GameId, who: Principal, v: int, text: string)
    requires game in s.games && 0 <= v <= 5
    requires FindRating(s.comments, game, LookupKey(who)).Some?
    requires s.games[game].voteCount != 0
    ensures var (t, status) := Submit(s, game, who, Some(v), text);
            var i := FindRating(s.comments, game, LookupKey(who)).value;
            && status == Ok
            && t.games[game].voteCount == s.games[game].voteCount
            && t.comments == s.comments[i := s.comments[i].(rating := Some(v), text := text)]
  {
    var i := FindRating(s.comments, game, LookupKey(who)).value;
    assert Submit(s, game, who, Some(v), text) == EditRating(s, game, i, v, text);
  }

  lemma ReRatingAverage(s: Store, game: GameId, who: Principal, v: int, text: string)
    requires game in s.games && 0 <= v <= 5
    requires FindRating(s.comments, game, LookupKey(who)).Some?
    requires s.games[game].voteCount != 0
    ensures var t := Submit(s, game, who, Some(v), text).0;
            var i := FindRating(s.comments, game, LookupKey(who)).value;
            var g := s.games[game];
            var previous := s.comments[i].rating.value;
            && (g.voteCount == 1 ==> t.games[game].averageTenths == 10 * v)
            && (g.voteCount != 1 ==>
                  t.games[game].averageTenths == RoundHalfEven(g.averageTenths * g.voteCount - 10 * previous + 10 * v, g.voteCount))
  {
    var i := FindRating(s.comments, game, LookupKey(who)).value;
    assert Submit(s, game, who, Some(v), text) == EditRating(s, game, i, v, text);
    EditOutcome(s, game, i, v, text);
  }

  /** The stored average after a successful re-rating, as the rebuilt total divided by the
      unchanged count. */
  lemma EditOutcome(s: Store, game: GameId, i: nat, v: int, text: string)
    requires game in s.games && i < |s.comments|
    requires IsRatingBy(s.comments[i], game, s.comments[i].author) && 0 <= v <= 5
    requires s.games[game].voteCount != 0
    ensures var g := s.games[game];
            var total := g.averageTenths * g.voteCount - 10 * s.comments[i].rating.value + 10 * v;
            EditRating(s, game, i, v, text).0.games[game].averageTenths == RecomputeAverage(total, g.voteCount, v).value
  {
  }

  /** An author with a rating comment whose game shows no votes cannot re-rate: the division by
      the zero count raises and nothing is saved. */
  lemma ReRatingWithoutVotesFails(s: Store, game: GameId, who: Principal, v: int, text: string)
    requires game in s.games && 0 <= v <= 5
    requires FindRating(s.comments, game, LookupKey(who)).Some?
    requires s.games[game].voteCount == 0
    ensures Submit(s, game, who, Some(v), text) == (s, ServerError)
  {
  }

  /** A comment without a rating leaves the game's average and vote count as they were. */
  lemma TextOnly(s: Store, game: GameId, who: Principal, text: string)
    requires game in s.games && !AllSpace(text)
    ensures var (t, status) := Submit(s, game, who, None, text);
            status == Ok && t.games[game] == s.games[game]
            && t.comments == s.comments + [Comment(game, StoredAuthor(who), text, None)]
            && !IsRating(t.comments[|s.comments|])
  {
  }

  // ----- invariants ---------------------------------------------------------------------------

  /** The one-vote rule: no two rating comments on one game share an author. */
  predicate OneRatingPerAuthor(cs: seq<Comment>) {
    forall i, j :: 0 <= i < j < |cs| && IsRating(cs[i]) && IsRating(cs[j]) && cs[i].game == cs[j].game
                   ==> cs[i].author != cs[j].author
  }

  /** A signed-in author keeps the one-vote rule: the author string the view searches by is the
      one it stores, so a second rating always finds and edits the first. */
  lemma {:induction false} MemberKeepsOneRating(s: Store, game: GameId, who: Principal, rating: Option<int>, text: string)
    requires game in s.games && (rating.Some? ==> 0 <= rating.value <= 5)
    requires who.Member?
    requires OneRatingPerAuthor(s.comments)
    ensures OneRatingPerAuthor(Submit(s, game, who, rating, text).0.comments)
  {
    match rating
    case None =>
    case Some(v) =>
      match FindRating(s.comments, game, who.name)
      case Some(i) => MemberReRatingKeepsOne(s, game, who.name, v, text);
      case None => MemberFirstRatingKeepsOne(s, game, who.name, v, text);
  }

  lemma MemberReRatingKeepsOne(s: Store, game: GameId, name: UserName, v: int, text: string)
    requires game in s.games && 0 <= v <= 5
    requires FindRating(s.comments, game, name).Some?
    requires OneRatingPerAuthor(s.comments)
    ensures OneRatingPerAuthor(Submit(s, game, Member(name), Some(v), text).0.comments)
  {
    var cs := s.comments;
    var i := FindRating(cs, game, name).value;
    EditKeepsOneRating(cs, i, cs[i].(rating := Some(v), text := text));
  }

  lemma MemberFirstRatingKeepsOne(s: Store, game: GameId, name: UserName, v: int, text: string)
    requires game in s.games && 0 <= v <= 5
    requires FindRating(s.comments, game, name).None?
    requires OneRatingPerAuthor(s.comments)
    ensures OneRatingPerAuthor(Submit(s, game, Member(name), Some(v), text).0.comments)
  {
    AppendKeepsOneRating(s.comments, Comment(game, name, text, Some(v)));
  }

  /** Rewriting a rating comment in place, same game and author, keeps the one-vote rule. */
  lemma EditKeepsOneRating(cs: seq<Comment>, i: nat, c: Comment)
    requires i < |cs| && IsRating(cs[i]) && OneRatingPerAuthor(cs)
    requires c.game == cs[i].game && c.author == cs[i].author
    ensures OneRatingPerAuthor(cs[i := c])
  {
    var t := cs[i := c];
    forall a, b | 0 <= a < b < |t| && IsRating(t[a]) && IsRating(t[b]) && t[a].game == t[b].game
      ensures t[a].author != t[b].author
    {
      assert IsRating(cs[a]) && IsRating(cs[b]);
    }
  }

  /** Appending a comment whose author has no rating on its game keeps the one-vote rule. */
  lemma AppendKeepsOneRating(cs: seq<Comment>, c: Comment)
    requires OneRatingPerAuthor(cs)
    requires forall j :: 0 <= j < |cs| ==> !IsRatingBy(cs[j], c.game, c.author)
    ensures OneRatingPerAuthor(cs + [c])
  {
    var t := cs + [c];
    forall a, b | 0 <= a < b < |t| && IsRating(t[a]) && IsRating(t[b]) && t[a].game == t[b].game
      ensures t[a].author != t[b].author
    {
      if b == |cs| {
        assert !IsRatingBy(cs[a], c.game, c.author);
      }
    }
  }

  /** The number of rating comments of a game and the sum of their ratings. */
  function RatingCount(cs: seq<Comment>, game: GameId): nat
    decreases |cs|
  {
    if |cs| == 0 then 0
    else RatingCount(cs[..|cs| - 1], game) + (if cs[|cs| - 1].game == game && IsRating(cs[|cs| - 1]) then 1 else 0)
  }

  function RatingSum(cs: seq<Comment>, game: GameId): int
    decreases |cs|
  {
    if |cs| == 0 then 0
    else RatingSum(cs[..|cs| - 1], game)
         + (if cs[|cs| - 1].game == game && IsRating(cs[|cs| - 1]) then cs[|cs| - 1].rating.value else 0)
  }

  function Weight(c: Comment, game: GameId): nat {
    if c.game == game && IsRating(c) then 1 else 0
  }

  function Contribution(c: Comment, game: GameId): int {
    if c.game == game && IsRating(c) then c.rating.value else 0
  }

  lemma {:induction false} TallyAppend(cs: seq<Comment>, c: Comment, game: GameId)
    ensures RatingCount(cs + [c], game) == RatingCount(cs, game) + Weight(c, game)
    ensures RatingSum(cs + [c], game) == RatingSum(cs, game) + Contribution(c, game)
  {
    assert (cs + [c])[..|cs|] == cs;
  }

  lemma {:induction false} TallyUpdate(cs: seq<Comment>, i: nat, c: Comment, game: GameId)
    requires i < |cs|
    ensures RatingCount(cs[i := c], game) == RatingCount(cs, game) - Weight(cs[i], game) + Weight(c, game)
    ensures RatingSum(cs[i := c], game) == RatingSum(cs, game) - Contribution(cs[i], game) + Contribution(c, game)
    decreases |cs|
  {
    var last := |cs| - 1;
    if i == last {
      assert cs[i := c][..last] == cs[..last];
    } else {
      TallyUpdate(cs[..last], i, c, game);
      assert cs[i := c][..last] == cs[..last][i := c];
    }
  }

  /** `vote_count` agrees with the rating comments stored for the game. */
  predicate VotesMatchComments(s: Store, game: GameId) {
    game in s.games && s.games[game].voteCount == RatingCount(s.comments, game)
  }

  /** Every successful submission, by any author, keeps `vote_count` equal to the number of the
      game's rating comments: a vote is added exactly when a rating comment is. */
  lemma SubmitKeepsVoteCount(s: Store, game: GameId, who: Principal, rating: Option<int>, text: string)
    requires game in s.games && (rating.Some? ==> 0 <= rating.value <= 5)
    requires VotesMatchComments(s, game)
    ensures VotesMatchComments(Submit(s, game, who, rating, text).0, game)
  {
    var (t, status) := Submit(s, game, who, rating, text);
    if status == Ok {
      if rating.None? {
        var c := Comment(game, StoredAuthor(who), text, None);
        assert t.comments == s.comments + [c] && t.games == s.games;
        TallyAppend(s.comments, c, game);
      } else {
        match FindRating(s.comments, game, LookupKey(who))
        case Some(i) => EditKeepsVoteCount(s, game, i, rating.value, text);
        case None => AddKeepsVoteCount(s, game, who, rating.value, text);
      }
    }
  }

  lemma EditKeepsVoteCount(s: Store, game: GameId, i: nat, v: int, text: string)
    requires game in s.games && i < |s.comments| && 0 <= v <= 5
    requires IsRatingBy(s.comments[i], game, s.comments[i].author)
    requires VotesMatchComments(s, game)
    ensures VotesMatchComments(EditRating(s, game, i, v, text).0, game)
  {
    var (t, status) := EditRating(s, game, i, v, text);
    if status == Ok {
      var c' := s.comments[i].(rating := Some(v), text := text);
      assert t.comments == s.comments[i := c'];
      TallyUpdate(s.comments, i, c', game);
    }
  }

  lemma AddKeepsVoteCount(s: Store, game: GameId, who: Principal, v: int, text: string)
    requires game in s.games && 0 <= v <= 5
    requires VotesMatchComments(s, game)
    ensures VotesMatchComments(AddRating(s, game, who, v, text).0, game)
  {
    var (t, status) := AddRating(s, game, who, v, text);
    if status == Ok {
      TallyAppend(s.comments, Comment(game, StoredAuthor(who), text, Some(v)), game);
    }
  }

  /** `average_rating` is exactly the mean of the game's ratings (no rounding was needed). */
  predicate ExactAverage(s: Store, game: GameId) {
    VotesMatchComments(s, game)
    && s.games[game].averageTenths * s.games[game].voteCount == 10 * RatingSum(s.comments, game)
  }

  /** `average_rating` is the game's mean rating rounded half-to-even to one decimal. */
  predicate RoundedAverage(s: Store, game: GameId) {
    VotesMatchComments(s, game)
    && var n := s.games[game].voteCount;
       var a := s.games[game].averageTenths;
       var total := 10 * RatingSum(s.comments, game);
       n > 0 ==> 2 * Abs(total - a * n) <= n && (2 * Abs(total - a * n) == n ==> a % 2 == 0)
  }

  /** One rating submitted on a game whose average is still exact yields the correctly rounded
      mean of all its ratings. The view rebuilds the total from the stored, already rounded,
      average, so this guarantee does not extend to a second step (see `AverageDrifts`). */
  lemma RatingFromExactAverage(s: Store, game: GameId, who: Principal, v: int, text: string)
    requires game in s.games && 0 <= v <= 5
    requires ExactAverage(s, game)
    ensures var (t, status) := Submit(s, game, who, Some(v), text);
            status == Ok ==> RoundedAverage(t, game)
  {
    match FindRating(s.comments, game, LookupKey(who))
    case Some(i) => EditFromExactAverage(s, game, i, v, text);
    case None => AddFromExactAverage(s, game, who, v, text);
  }

  lemma EditFromExactAverage(s: Store, game: GameId, i: nat, v: int, text: string)
    requires game in s.games && i < |s.comments| && 0 <= v <= 5
    requires IsRatingBy(s.comments[i], game, s.comments[i].author)
    requires ExactAverage(s, game)
    ensures var (t, status) := EditRating(s, game, i, v, text);
            status == Ok ==> RoundedAverage(t, game)
  {
    var (t, status) := EditRating(s, game, i, v, text);
    if status == Ok {
      var g := s.games[game];
      var n := g.voteCount;
      var a := t.games[game].averageTenths;
      var previous := s.comments[i].rating.value;
      var c' := s.comments[i].(rating := Some(v), text := text);
      assert t.comments == s.comments[i := c'];
      TallyUpdate(s.comments, i, c', game);
      var sum' := RatingSum(t.comments, game);
      assert sum' == RatingSum(s.comments, game) - previous + v;
      var total := g.averageTenths * n - 10 * previous + 10 * v;
      assert total == 10 * sum';
      assert RecomputeAverage(total, n, v) == Some(a);
      if n == 1 {
        OnlyRatingIsTheEdited(s.comments, game, i);
      }
      RoundedFromTotal(total, n, v, a);
    }
  }

  lemma AddFromExactAverage(s: Store, game: GameId, who: Principal, v: int, text: string)
    requires game in s.games && 0 <= v <= 5
    requires ExactAverage(s, game)
    ensures var (t, status) := AddRating(s, game, who, v, text);
            status == Ok ==> RoundedAverage(t, game)
  {
    var (t, status) := AddRating(s, game, who, v, text);
    if status == Ok {
      var g := s.games[game];
      var n := g.voteCount + 1;
      var a := t.games[game].averageTenths;
      var c := Comment(game, StoredAuthor(who), text, Some(v));
      TallyAppend(s.comments, c, game);
      var sum' := RatingSum(t.comments, game);
      assert sum' == RatingSum(s.comments, game) + v;
      var total := g.averageTenths * g.voteCount + 10 * v;
      assert total == 10 * sum';
      assert RecomputeAverage(total, n, v) == Some(a);
      if n == 1 {
        ZeroCountZeroSum(s.comments, game);
      }
      RoundedFromTotal(total, n, v, a);
    }
  }

  /** The average `RecomputeAverage` produces is the rounded quotient whenever the count-one
      shortcut agrees with the total. */
  lemma RoundedFromTotal(total: int, n: int, v: int, a: int)
    requires n > 0 && RecomputeAverage(total, n, v) == Some(a)
    requires n == 1 ==> total == 10 * v
    ensures 2 * Abs(total - a * n) <= n && (2 * Abs(total - a * n) == n ==> a % 2 == 0)
  {
    if n != 1 {
      RecomputeAverageRounds(total, n, v);
    }
  }

  lemma {:induction false} ZeroCountZeroSum(cs: seq<Comment>, game: GameId)
    requires RatingCount(cs, game) == 0
    ensures RatingSum(cs, game) == 0
    decreases |cs|
  {
    if |cs| > 0 {
      ZeroCountZeroSum(cs[..|cs| - 1], game);
    }
  }

  /** When a game has a single rating comment, its rating sum is that comment's rating. */
  lemma OnlyRatingIsTheEdited(cs: seq<Comment>, game: GameId, i: nat)
    requires i < |cs| && cs[i].game == game && IsRating(cs[i])
    requires RatingCount(cs, game) == 1
    ensures RatingSum(cs, game) == cs[i].rating.value
  {
    var blank := cs[i].(rating := None);
    TallyUpdate(cs, i, blank, game);
    ZeroCountZeroSum(cs[i := blank], game);
  }

  // ----- worked examples ----------------------------------------------------------------------

  function SampleGame(averageTenths: int, voteCount: int): Game {
    Game("Sample", "PC", "Strategy", "Pub", "Dev", Dates.Date(2020, 1, 1), "Test game",
         averageTenths, voteCount, "https://example.com", "https://example.com", "https://example.com")
  }

  /** A running example: 4 from one user gives 4.0, 3 from a second gives 3.5,
      and the first user changing to 0 gives 1.5 with two votes. */
  lemma RatingWalkthrough()
    ensures var s0 := Store(map["g" := SampleGame(0, 0)], [], map[], {});
            var (s1, st1) := Submit(s0, "g", Member("ana"), Some(4), "");
            var (s2, st2) := Submit(s1, "g", Member("ben"), Some(3), "");
            var (s3, st3) := Submit(s2, "g", Member("ana"), Some(0), "changed my mind");
            && st1 == Ok && s1.games["g"].averageTenths == 40 && s1.games["g"].voteCount == 1
            && st2 == Ok && s2.games["g"].averageTenths == 35 && s2.games["g"].voteCount == 2
            && st3 == Ok && s3.games["g"].averageTenths == 15 && s3.games["g"].voteCount == 2
            && |s3.comments| == 2
  {
    var s0 := Store(map["g" := SampleGame(0, 0)], [], map[], {});
    var (s1, st1) := Submit(s0, "g", Member("ana"), Some(4), "");
    assert FindRating(s0.comments, "g", "ana") == None;
    assert s1.comments == [Comment("g", "ana", "", Some(4))];
    var (s2, st2) := Submit(s1, "g", Member("ben"), Some(3), "");
    assert FindRating(s1.comments, "g", "ben") == None;
    assert RoundHalfEven(70, 2) == 35 by { RoundHalfEvenUnique(70, 2, 35); }
    assert s2.comments == [Comment("g", "ana", "", Some(4)), Comment("g", "ben", "", Some(3))];
    assert FindRating(s2.comments, "g", "ana") == Some(0);
    assert RoundHalfEven(30, 2) == 15 by { RoundHalfEvenUnique(30, 2, 15); }
  }

  /** The store of the drift example: three users rated the game, only "ana"'s rating varies. */
  function DriftStore(averageTenths: int, anaRating: int): Store {
    Store(map["g" := SampleGame(averageTenths, 3)],
          [Comment("g", "ana", "", Some(anaRating)), Comment("g", "ben", "", Some(0)),
           Comment("g", "cy", "", Some(0))], map[], {})
  }

  /** One re-rating by "ana" in the drift example. */
  lemma DriftStep(averageTenths: int, previous: int, v: int)
    requires 0 <= previous <= 5 && 0 <= v <= 5
    ensures Submit(DriftStore(averageTenths, previous), "g", Member("ana"), Some(v), "")
            == (DriftStore(RoundHalfEven(averageTenths * 3 - 10 * previous + 10 * v, 3), v), Ok)
  {
    var s := DriftStore(averageTenths, previous);
    assert FindRating(s.comments, "g", "ana") == Some(0);
    var a := RoundHalfEven(averageTenths * 3 - 10 * previous + 10 * v, 3);
    assert RecomputeAverage(averageTenths * 3 - 10 * previous + 10 * v, 3, v) == Some(a);
    var t := EditRating(s, "g", 0, v, "");
    assert t.1 == Ok;
    assert t.0.comments == DriftStore(a, v).comments;
    assert t.0.games == DriftStore(a, v).games;
  }

  /** The stored average is not the rounded mean in general, though it is meant to be:
      three users rate 0, then one of them moves to 1, 2, 3 and back to 0. Every rating is 0
      again, yet `average_rating` ends at -0.1 because each step rebuilds the total from the
      previously rounded average. */
  lemma AverageDrifts()
    ensures var s0 := DriftStore(0, 0);
            var s1 := Submit(s0, "g", Member("ana"), Some(1), "").0;
            var s2 := Submit(s1, "g", Member("ana"), Some(2), "").0;
            var s3 := Submit(s2, "g", Member("ana"), Some(3), "").0;
            var s4 := Submit(s3, "g", Member("ana"), Some(0), "").0;
            && ExactAverage(s0, "g")
            && s4.comments == s0.comments
            && s4.games["g"].averageTenths == -1
            && !RoundedAverage(s4, "g")
  {
    DriftMove(0, 0, 1, 3);
    DriftMove(3, 1, 2, 6);
    DriftMove(6, 2, 3, 9);
    DriftMove(9, 3, 0, -1);
    DriftTally();
  }

  /** One re-rating by "ana" in the drift example, with the rounded average given. */
  lemma DriftMove(averageTenths: int, previous: int, v: int, next: int)
    requires 0 <= previous <= 5 && 0 <= v <= 5
    requires var total := averageTenths * 3 - 10 * previous + 10 * v;
             2 * Abs(total - next * 3) <= 3 && (2 * Abs(total - next * 3) == 3 ==> next % 2 == 0)
    ensures Submit(DriftStore(averageTenths, previous), "g", Member("ana"), Some(v), "").0 == DriftStore(next, v)
  {
    DriftStep(averageTenths, previous, v);
    RoundHalfEvenUnique(averageTenths * 3 - 10 * previous + 10 * v, 3, next);
  }

  lemma DriftTally()
    ensures RatingSum(DriftStore(0, 0).comments, "g") == 0
    ensures RatingCount(DriftStore(0, 0).comments, "g") == 3
  {
    var cs := DriftStore(0, 0).comments;
    TallyAppend([], cs[0], "g");
    TallyAppend([cs[0]], cs[1], "g");
    TallyAppend([cs[0], cs[1]], cs[2], "g");
    assert [] + [cs[0]] == [cs[0]];
    assert [cs[0]] + [cs[1]] == [cs[0], cs[1]];
    assert [cs[0], cs[1]] + [cs[2]] == cs;
  }

  /** An anonymous visitor is looked up as "AnonymousUser" but saved as "Anonymous", so every
      anonymous rating is a new vote: two in a row leave two rating comments by the same author
      and two more votes. */
  lemma AnonymousRatingsAccumulate(s: Store, game: GameId, v: int, w: int)
    requires game in s.games && 0 <= v <= 5 && 0 <= w <= 5
    requires forall j :: 0 <= j < |s.comments| ==> s.comments[j].author != "AnonymousUser"
    requires s.games[game].voteCount >= 0
    ensures var (s1, st1) := Submit(s, game, Anonymous, Some(v), "");
            var (s2, st2) := Submit(s1, game, Anonymous, Some(w), "");
            && st1 == Ok && st2 == Ok
            && s2.games[game].voteCount == s.games[game].voteCount + 2
            && |s2.comments| == |s.comments| + 2
            && IsRatingBy(s2.comments[|s.comments|], game, DefaultAuthor)
            && IsRatingBy(s2.comments[|s.comments| + 1], game, DefaultAuthor)
            && !OneRatingPerAuthor(s2.comments)
  {
    var (s1, st1) := Submit(s, game, Anonymous, Some(v), "");
    assert FindRating(s.comments, game, "AnonymousUser") == None;
    assert s1.comments == s.comments + [Comment(game, DefaultAuthor, "", Some(v))];
    assert FindRating(s1.comments, game, "AnonymousUser") == None by {
      assert forall j :: 0 <= j < |s1.comments| ==> s1.comments[j].author != "AnonymousUser";
    }
    var (s2, st2) := Submit(s1, game, Anonymous, Some(w), "");
    var n := |s.comments|;
    assert s2.comments[n] == Comment(game, DefaultAuthor, "", Some(v));
    assert s2.comments[n + 1] == Comment(game, DefaultAuthor, "", Some(w));
  }

  /** Conversely, an anonymous rating edits the rating of a registered user whose username is
      "AnonymousUser" instead of adding a vote. */
  lemma AnonymousEditsAnonymousUserRating(s: Store, game: GameId, i: nat, v: int)
    requires game in s.games && 0 <= v <= 5 && s.games[game].voteCount != 0
    requires FindRating(s.comments, game, "AnonymousUser") == Some(i)
    ensures var (t, st) := Submit(s, game, Anonymous, Some(v), "");
            && st == Ok
            && t.comments[i] == s.comments[i].(rating := Some(v), text := "")
            && t.comments[i].author == "AnonymousUser"
            && t.games[game].voteCount == s.games[game].voteCount
  {
  }
}

=== FILE: models.dfy ===
/** The persistent records of models.py (`Game`, `Comment`, `Like`, `UserGameFollow`) as one
    immutable store, with the model-level helpers the views call. */
module Models {
  import opened Common
  import opened Dates

  type GameId = string
  type UserName = string

  /** A catalogue entry. `average_rating` is a one-decimal `DecimalField`, kept here as an integer
      count of tenths (3.5 is 35); `vote_count` is an `IntegerField`. */
  datatype Game = Game(
    title: string,
    platform: string,
    genre: string,
    publisher: string,
    developer: string,
    releaseDate: Date,
    description: string,
    averageTenths: int,
    voteCount: int,
    profileUrl: string,
    gameUrl: string,
    thumbnail: string)
  {
    /** A game as created before any vote: `average_rating` 0 and `vote_count` 0. */
    predicate IsUnrated() { averageTenths == 0 && voteCount == 0 }
  }

  /** A comment row. `user` is free text (a username, or the anonymous label); `rating` is
      nullable. Comments are never deleted by the views, so a comment's position in the store's
      sequence serves as its primary key. */
  datatype Comment = Comment(game: GameId, author: string, text: string, rating: Option<int>)

  /** The author a comment row gets when none is given. */
  const DefaultAuthor: string := "Anonymous"

  /** A `Like` row: two independent booleans, both false when the row is created. */
  datatype Like = Like(like: bool, dislike: bool)

  const NewLike: Like := Like(false, false)

  /** All rows the views read and write. Likes are keyed by (comment, user) and follows are a set
      of (user, game) pairs, so the two uniqueness constraints of models.py hold by construction. */
  datatype Store = Store(
    games: map<GameId, Game>,
    comments: seq<Comment>,
    likes: map<(nat, UserName), Like>,
    follows: set<(UserName, GameId)>)

  /** `Like.is_valid_vote`. */
  predicate IsValidVote(l: Like) {
    !(l.like && l.dislike)
  }

  predicate AllVotesValid(likes: map<(nat, UserName), Like>) {
    forall k :: k in likes ==> IsValidVote(likes[k])
  }

  /** The status word `Like.__str__` shows. */
  function LikeStatus(l: Like): (s: string)
    ensures s in {"Like", "Dislike", "No vote"}
    ensures s == "Like" <==> l.like
    ensures s == "No vote" <==> !l.like && !l.dislike
  {
    if l.like then "Like" else if l.dislike then "Dislike" else "No vote"
  }

  /** For rows that keep `is_valid_vote`, the status word tells the row apart completely. */
  lemma StatusIdentifiesValidVote(a: Like, b: Like)
    requires IsValidVote(a) && IsValidVote(b)
    ensures LikeStatus(a) == LikeStatus(b) <==> a == b
  {
  }

  /** The keys of the comment's like rows whose `like` flag is set: `likes_count` is its size. */
  function LikersOf(likes: map<(nat, UserName), Like>, comment: nat): set<(nat, UserName)> {
    set k | k in likes && k.0 == comment && likes[k].like
  }

  /** The keys of the comment's like rows whose `dislike` flag is set: `dislikes_count` is its size. */
  function DislikersOf(likes: map<(nat, UserName), Like>, comment: nat): set<(nat, UserName)> {
    set k | k in likes && k.0 == comment && likes[k].dislike
  }

  /** `Comment.likes_count`. */
  function LikesCount(likes: map<(nat, UserName), Like>, comment: nat): nat {
    |LikersOf(likes, comment)|
  }

  /** `Comment.dislikes_count`. */
  function DislikesCount(likes: map<(nat, UserName), Like>, comment: nat): nat {
    |DislikersOf(likes, comment)|
  }

  /** When every row keeps `is_valid_vote`, a comment never has more likes plus dislikes than
      it has like rows. */
  lemma CountsBoundedByRows(likes: map<(nat, UserName), Like>, comment: nat)
    requires AllVotesValid(likes)
    ensures LikesCount(likes, comment) + DislikesCount(likes, comment)
            <= |set k | k in likes && k.0 == comment|
  {
    var rows := set k | k in likes && k.0 == comment;
    var l := LikersOf(likes, comment);
    var d := DislikersOf(likes, comment);
    assert l !! d;
    assert l + d <= rows;
    assert |l + d| == |l| + |d|;
    SubsetCardinality(l + d, rows);
  }

  lemma SubsetCardinality<T>(a: set<T>, b: set<T>)
    requires a <= b
    ensures |a| <= |b|
  {
    assert b == a + (b - a);
  }

  /** `Game.is_followed_by_user`: never for an anonymous visitor, otherwise exactly when the
      follow row exists. */
  predicate IsFollowedByUser(follows: set<(UserName, GameId)>, who: Principal, game: GameId) {
    match who
    case Anonymous => false
    case Member(name) => (name, game) in follows
  }
}

=== FILE: reactions.dfy ===
/** `like_comment` (game_views.py): the like/dislike toggle on a comment and its effect on the
    comment's like and dislike counts. */
module Reactions {
  import opened Common
  import opened Models

  /** The POST branch's update of a Like row. Only the exact kind "like" toggles the like flag;
      any other value, or none, toggles the dislike flag. Either way the other flag is cleared. */
  function Toggle(l: Like, likeType: Option<string>): (r: Like)
    ensures IsValidVote(r)
    ensures likeType == Some("like") ==> r.like == !l.like && !r.dislike
    ensures likeType != Some("like") ==> r.dislike == !l.dislike && !r.like
  {
    if likeType == Some("like") then Like(!l.like, false) else Like(false, !l.dislike)
  }

  /** Toggling the same kind twice undoes the first toggle on that kind's flag and leaves the
      other flag cleared; from a fresh row it leaves no vote at all. */
  lemma ToggleTwice(l: Like, likeType: Option<string>)
    ensures likeType == Some("like") ==> Toggle(Toggle(l, likeType), likeType) == Like(l.like, false)
    ensures likeType != Some("like") ==> Toggle(Toggle(l, likeType), likeType) == Like(false, l.dislike)
    ensures Toggle(Toggle(NewLike, likeType), likeType) == NewLike
  {
  }

  /** A third toggle of the same kind is the same as one toggle. */
  lemma ToggleThrice(l: Like, likeType: Option<string>)
    ensures Toggle(Toggle(Toggle(l, likeType), likeType), likeType) == Toggle(l, likeType)
  {
  }

  /** What the view answers: the login page for an anonymous visitor, 404 for an unknown
      comment, and otherwise the buttons rendered with the row's state. */
  datatype LikeReply = LoginRedirect | CommentNotFound | Buttons(state: Like)

  /** `like_comment(request, comment_id)`. The row is fetched or created on GET as well as on
      POST; only a POST toggles it. */
  function LikeComment(s: Store, who: Principal, comment: nat, isPost: bool, likeType: Option<string>)
    : (r: (Store, LikeReply))
    ensures who.Anonymous? ==> r == (s, LoginRedirect)
    ensures who.Member? && comment >= |s.comments| ==> r == (s, CommentNotFound)
    ensures r.1.Buttons? <==> who.Member? && comment < |s.comments|
    ensures r.0.games == s.games && r.0.comments == s.comments && r.0.follows == s.follows
    ensures r.1.Buttons? ==>
              var key := (comment, who.name);
              var before := if key in s.likes then s.likes[key] else NewLike;
              && r.0.likes == s.likes[key := r.1.state]
              && (isPost ==> r.1.state == Toggle(before, likeType))
              && (!isPost ==> r.1.state == before)
  {
    match who
    case Anonymous => (s, LoginRedirect)
    case Member(name) =>
      if comment >= |s.comments| then (s, CommentNotFound)
      else
        var key := (comment, name);
        var row := if key in s.likes then s.likes[key] else NewLike;
        var state := if isPost then Toggle(row, likeType) else row;
        (s.(likes := s.likes[key := state]), Buttons(state))
  }

  /** The view keeps every row a valid vote. */
  lemma LikeCommentKeepsValidVotes(s: Store, who: Principal, comment: nat, isPost: bool, likeType: Option<string>)
    requires AllVotesValid(s.likes)
    ensures AllVotesValid(LikeComment(s, who, comment, isPost, likeType).0.likes)
  {
  }

  /** A GET changes no count: at most it adds an empty row. */
  lemma ViewKeepsCounts(s: Store, who: Principal, comment: nat, other: nat)
    ensures var t := LikeComment(s, who, comment, false, None).0;
            LikesCount(t.likes, other) == LikesCount(s.likes, other)
            && DislikesCount(t.likes, other) == DislikesCount(s.likes, other)
  {
    var t := LikeComment(s, who, comment, false, None).0;
    if who.Member? && comment < |s.comments| {
      assert LikersOf(t.likes, other) == LikersOf(s.likes, other);
      assert DislikersOf(t.likes, other) == DislikersOf(s.likes, other);
    }
  }

  /** A "like" by a signed-in user moves the comment's like count by one, up when the user had
      not liked it and down when they had, and takes back their dislike if there was one. */
  lemma LikeMovesCounts(s: Store, name: UserName, comment: nat)
    requires comment < |s.comments|
    ensures var key := (comment, name);
            var before := if key in s.likes then s.likes[key] else NewLike;
            var t := LikeComment(s, Member(name), comment, true, Some("like")).0;
            && LikesCount(t.likes, comment) == LikesCount(s.likes, comment) + (if before.like then -1 else 1)
            && DislikesCount(t.likes, comment) == DislikesCount(s.likes, comment) - (if before.dislike then 1 else 0)
  {
    var key := (comment, name);
    var before := if key in s.likes then s.likes[key] else NewLike;
    var t := LikeComment(s, Member(name), comment, true, Some("like")).0;
    assert t.likes == s.likes[key := Like(!before.like, false)];
    FlagChange(s.likes, key, Like(!before.like, false));
  }

  /** Whatever a user does on one comment, every other comment's counts stay as they were. */
  lemma OtherCommentsKeepCounts(s: Store, who: Principal, comment: nat, isPost: bool, likeType: Option<string>, other: nat)
    requires other != comment
    ensures var t := LikeComment(s, who, comment, isPost, likeType).0;
            && LikesCount(t.likes, other) == LikesCount(s.likes, other)
            && DislikesCount(t.likes, other) == DislikesCount(s.likes, other)
  {
    var t := LikeComment(s, who, comment, isPost, likeType).0;
    assert LikersOf(t.likes, other) == LikersOf(s.likes, other);
    assert DislikersOf(t.likes, other) == DislikersOf(s.likes, other);
  }

  /** The mirror image for any other kind: the dislike count moves by one and a like is taken
      back. */
  lemma DislikeMovesCounts(s: Store, name: UserName, comment: nat, likeType: Option<string>)
    requires comment < |s.comments| && likeType != Some("like")
    ensures var key := (comment, name);
            var before := if key in s.likes then s.likes[key] else NewLike;
            var t := LikeComment(s, Member(name), comment, true, likeType).0;
            && DislikesCount(t.likes, comment) == DislikesCount(s.likes, comment) + (if before.dislike then -1 else 1)
            && LikesCount(t.likes, comment) == LikesCount(s.likes, comment) - (if before.like then 1 else 0)
  {
    var key := (comment, name);
    var before := if key in s.likes then s.likes[key] else NewLike;
    var t := LikeComment(s, Member(name), comment, true, likeType).0;
    assert t.likes == s.likes[key := Like(false, !before.dislike)];
    FlagChange(s.likes, key, Like(false, !before.dislike));
  }

  /** Overwriting one row changes the comment's likers and dislikers by exactly that key. */
  lemma FlagChange(likes: map<(nat, UserName), Like>, key: (nat, UserName), row: Like)
    ensures var before := if key in likes then likes[key] else NewLike;
            var t := likes[key := row];
            && LikersOf(t, key.0) == (if row.like then LikersOf(likes, key.0) + {key} else LikersOf(likes, key.0) - {key})
            && DislikersOf(t, key.0) == (if row.dislike then DislikersOf(likes, key.0) + {key} else DislikersOf(likes, key.0) - {key})
            && (key in LikersOf(likes, key.0) <==> before.like)
            && (key in DislikersOf(likes, key.0) <==> before.dislike)
  {
  }
}

=== FILE: text.dfy ===
/** The handful of Python `str` operations the views rely on: `isspace`, `strip`,
    `startswith` and `replace(pattern, '')`. */
module Text {

  /** Python's `str.isspace` for one character: the Unicode whitespace set CPython uses. */
  predicate IsSpace(c: char) {
    || ('\t' <= c <= '\r')
    || ('\U{1C}' <= c <= '\U{20}')
    || c == '\U{85}' || c == '\U{A0}' || c == '\U{1680}'
    || ('\U{2000}' <= c <= '\U{200A}')
    || c == '\U{2028}' || c == '\U{2029}' || c == '\U{202F}' || c == '\U{205F}' || c == '\U{3000}'
  }

  predicate AllSpace(s: string) {
    forall i :: 0 <= i < |s| ==> IsSpace(s[i])
  }

  /** `s.lstrip()`: the suffix left after dropping leading whitespace. */
  function TrimStart(s: string): (r: string)
    ensures |r| <= |s| && r == s[|s| - |r|..]
    ensures AllSpace(s[..|s| - |r|])
    ensures |r| > 0 ==> !IsSpace(r[0])
  {
    if |s| > 0 && IsSpace(s[0]) then
      var r := TrimStart(s[1..]);
      assert s[1..][..|s| - 1 - |r|] == s[1..|s| - |r|];
      r
    else s
  }

  /** `s.rstrip()`: the prefix left after dropping trailing whitespace. */
  function TrimEnd(s: string): (r: string)
    ensures |r| <= |s| && r == s[..|r|]
    ensures AllSpace(s[|r|..])
    ensures |r| > 0 ==> !IsSpace(r[|r| - 1])
  {
    if |s| > 0 && IsSpace(s[|s| - 1]) then
      var r := TrimEnd(s[..|s| - 1]);
      assert s[..|s| - 1][|r|..] + [s[|s| - 1]] == s[|r|..];
      r
    else s
  }

  /** `s.strip()`: both ends trimmed. */
  function Strip(s: string): (r: string)
    ensures |r| <= |s|
    ensures |r| > 0 ==> !IsSpace(r[0]) && !IsSpace(r[|r| - 1])
  {
    TrimEnd(TrimStart(s))
  }

  /** A string is blank after `strip()` exactly when every character is whitespace. */
  lemma StripEmptyIffAllSpace(s: string)
    ensures Strip(s) == [] <==> AllSpace(s)
  {
    var t := TrimStart(s);
    if Strip(s) == [] {
      assert AllSpace(t[0..]);
      assert s == s[..|s| - |t|] + t;
    } else {
      assert |t| > 0;
      assert s[|s| - |t|] == t[0];
    }
  }

  /** Stripping twice changes nothing. */
  lemma StripIdempotent(s: string)
    ensures Strip(Strip(s)) == Strip(s)
  {
    var r := Strip(s);
    if |r| > 0 {
      assert TrimStart(r) == r;
      assert TrimEnd(r) == r;
    }
  }

  /** `strip()` leaves alone a string that neither starts nor ends with whitespace. */
  lemma StripUntrimmed(s: string)
    requires |s| > 0 ==> !IsSpace(s[0]) && !IsSpace(s[|s| - 1])
    ensures Strip(s) == s
  {
  }

  predicate StartsWith(s: string, prefix: string) {
    |prefix| <= |s| && s[..|prefix|] == prefix
  }

  /** Whether `pattern` occurs anywhere in `s` (Python's `pattern in s`). */
  predicate Contains(s: string, pattern: string)
    decreases |s|
  {
    StartsWith(s, pattern) || (|s| > 0 && Contains(s[1..], pattern))
  }

  /** `s.replace(pattern, '')`: every non-overlapping occurrence, scanned left to right, removed. */
  function RemoveAll(s: string, pattern: string): (r: string)
    requires |pattern| > 0
    ensures |r| <= |s|
    decreases |s|
  {
    if |s| == 0 then s
    else if StartsWith(s, pattern) then RemoveAll(s[|pattern|..], pattern)
    else [s[0]] + RemoveAll(s[1..], pattern)
  }

  /** Removal is the identity on a string in which the pattern never occurs. */
  lemma {:induction false} RemoveAllAbsent(s: string, pattern: string)
    requires |pattern| > 0
    requires !Contains(s, pattern)
    ensures RemoveAll(s, pattern) == s
    decreases |s|
  {
    if |s| > 0 {
      RemoveAllAbsent(s[1..], pattern);
      assert [s[0]] + s[1..] == s;
    }
  }

  /** A leading occurrence of the pattern is removed and the scan resumes right after it. */
  lemma RemoveAllLeading(pattern: string, s: string)
    requires |pattern| > 0
    ensures RemoveAll(pattern + s, pattern) == RemoveAll(s, pattern)
  {
    assert StartsWith(pattern + s, pattern);
    assert (pattern + s)[|pattern|..] == s;
  }

  /** Python's `'\0' in s`, which Django's form fields refuse. */
  predicate HasNullCharacter(s: string) {
    '\0' in s
  }
}
